=== FILE: README.md ===
# serverless-plugin-subscription-filter, modelled in Dafny

The plugin hooks into the Serverless framework's `deploy:compileEvents` step.
A function event can carry a `subscriptionFilter` setting of the form
`{stage, logGroupName, filterPattern}`. For every such event whose `stage`
is the active stage, the plugin adds two resources to the compiled
CloudFormation template:

- an `AWS::Lambda::Permission`, which lets CloudWatch Logs of the region
  invoke the function for the log group's ARN;
- an `AWS::Logs::SubscriptionFilter`, which streams the log group, filtered
  by the pattern, into the function and depends on that permission.

Before building the two resources the plugin does two things:

- It refuses a log group that already has a subscription filter aimed at
  some other destination. CloudWatch Logs allows one filter per log group.
- It looks up the log group's ARN by searching the pages of
  `describeLogGroups` for an exact name match.

The model, one module per component:

| module | models |
|---|---|
| `Settings` | `validateSettings`: the raw JavaScript values of a setting and the three checks, in order |
| `Errors` | the errors a run raises and their exact messages |
| `Naming` | the logical IDs, `buildLambdaFunctionName` and the guessed destination ARN |
| `LimitCheck` | `getSubscriptionFilterDestinationArn` and `checkResourceLimitExceeded` |
| `LogGroupSearch` | `getLogGroupArn`: the search as written, and a corrected, page-bounded search with a reference definition |
| `JsonString` | `escapeDoubleQuote`, `JSON.parse` of a string literal (section 7 of RFC 8259), and an escape that parsing always inverts |
| `Fragments` | `compilePermission`, and `compileSubscriptionFilter` twice: as written, with the pattern escaped by `escapeDoubleQuote` and read back by `JSON.parse`, which can throw; and with a corrected escape that always reads back as the configured pattern |
| `Orchestrator` | the two nested `forEach` loops of `compileSubscriptionFilterEvents`, which select the jobs to run |
| `Compiler` | `doCompile` as written (the search as written and the quote-only escape) and corrected (the corrected search and escape), and the run of all selected jobs, corrected, against the template's `Resources` |

Parts of the system that the model cannot see are inputs:

- The AWS answers are functions in the `Compiler.Aws` value: the account ID,
  `describeSubscriptionFilters` by log group, and `describeLogGroups` by
  prefix and token.
- The Serverless naming helpers are function fields of `Naming.Naming`.
  Nothing is assumed about them.

`Resources` is a map from logical ID to resource. A `_.merge` of a fragment
is a map update.

Two points of the code that are easy to misread:

- A search for `/abc` that is given the pages `[/abcd]` and `[/abc]`,
  linked by a token, never settles (see Findings).
- The subscription's `DestinationArn` is `{ "Fn::GetAtt": [<lambda logical
  id>, "Arn"] }`, not a resolved ARN (`Fragments.GetAtt`).

## Model

| member | source | states |
|---|---|---|
| Settings.Validate | src/serverless_plugin_subscription_filter.js:45-76 | A missing setting is skipped, and only a missing one. `stage` is reported exactly when the setting is present and `stage` is not a non-empty string. `logGroupName` is reported exactly when `stage` passes and `logGroupName` fails. `filterPattern` is reported exactly when both earlier fields pass and it fails. An accepted setting is well-formed and holds exactly the configured strings. |
| Settings.ValidateToRaw | src/serverless_plugin_subscription_filter.js:45-76 | A setting of three strings validates to itself exactly when all three are non-empty. Otherwise it is rejected naming the first empty field in checking order. |
| Settings.FirstBadFieldWins | src/serverless_plugin_subscription_filter.js:51-73 | The first unusable field, in the order stage, logGroupName, filterPattern, is the one reported, whatever the later fields hold. |
| Settings.ValidateAcceptsExactlyUsable | src/serverless_plugin_subscription_filter.js:51-75 | A present setting is accepted if and only if all three fields are non-empty strings. |
| Errors.ConfigurationMessageNamesField | src/serverless_plugin_subscription_filter.js:52-72 | The configuration error message names the offending property right after "You can't set ". |
| Errors.ConfigurationMessagesDistinct | src/serverless_plugin_subscription_filter.js:52-72 | Different offending properties give different messages. |
| Errors.Message | src/serverless_plugin_subscription_filter.js:52-130 | Each error's message as raised: a configuration message starts with "You can't set "; the resource-limit message is its fixed opening, the log group name and its fixed closing, whitespace included; a missing log group gives "LogGroup not found"; a provider error passes its own message through. |
| Errors.ResourceLimitMessageNamesLogGroup | src/serverless_plugin_subscription_filter.js:121-130 | The resource-limit message carries the log group name right after its fixed opening. |
| Naming.PermissionLogicalId | src/serverless_plugin_subscription_filter.js:228-233 | The permission's logical ID is the normalized function name, then `LambdaPermission`, then the alphanumeric log group name. Each part is at its position and the length is the sum of the parts. |
| Naming.SubscriptionFilterLogicalId | src/serverless_plugin_subscription_filter.js:221-226 | The subscription filter's logical ID is the normalized function name, then `SubscriptionFilter`, then the alphanumeric log group name. Each part is at its position and the length is the sum of the parts. |
| Naming.PermissionAndSubscriptionIdsDiffer | src/serverless_plugin_subscription_filter.js:221-233 | For every naming service, function and log group, the two logical IDs differ, so the two fragments never overwrite each other. |
| Naming.LambdaFunctionName | src/serverless_plugin_subscription_filter.js:235-240 | The deployed name is the service name, "-", the stage, "-", then the function name. |
| Naming.LambdaFunctionArn | src/serverless_plugin_subscription_filter.js:248 | The ARN is "arn:aws:lambda:", the region, ":", the account ID, ":function:", then the deployed function name, each part at its position, and the length is the sum of the parts. |
| Naming.GuessDestinationArn | src/serverless_plugin_subscription_filter.js:242-254 | The guessed destination is the Lambda ARN in the deployment's region and the given account whose name part is `<service>-<stage>-<function>`. The region, the account, ":function:" and the deployed name are each placed, and the ARN ends with the function name. |
| Naming.LambdaFunctionArnInjective | src/serverless_plugin_subscription_filter.js:248 | Within one region and account, equal ARNs mean equal function names. |
| Naming.LambdaFunctionNameStageInjective | src/serverless_plugin_subscription_filter.js:235-240 | Equal deployed names for one service and function mean equal stages. |
| Naming.GuessDestinationArnInjective | src/serverless_plugin_subscription_filter.js:235-254 | Two different functions of one deployment never guess the same destination ARN. |
| Naming.GuessDestinationArnStageInjective | src/serverless_plugin_subscription_filter.js:235-254 | One function deployed in two stages guesses two different destination ARNs. |
| LimitCheck.ExistingDestination | src/serverless_plugin_subscription_filter.js:256-275 | There is no existing destination exactly when the log group has no filter. Otherwise it is the first filter's destination. |
| LimitCheck.CheckResourceLimit | src/serverless_plugin_subscription_filter.js:103-141 | A rejected provider call is passed on as that call's error. Otherwise the only possible failure is the resource-limit error naming the log group. |
| LimitCheck.NoExistingFilterPasses | src/serverless_plugin_subscription_filter.js:116-118 | A log group without a subscription filter always passes. |
| LimitCheck.RedeployPasses | src/serverless_plugin_subscription_filter.js:120-135 | A log group whose filter already targets this deployment's function passes, so a redeploy is accepted. |
| LimitCheck.ForeignDestinationFails | src/serverless_plugin_subscription_filter.js:116-133 | A non-empty destination other than the guessed ARN fails with the resource-limit error for that log group. |
| LimitCheck.OtherFunctionConflicts | src/serverless_plugin_subscription_filter.js:105-133 | A log group already wired to another function of the same service and stage is refused. |
| LimitCheck.OtherStageConflicts | src/serverless_plugin_subscription_filter.js:105-133 | A log group already wired to the same function in another stage is refused. |
| LogGroupSearch.FindIndex | src/serverless_plugin_subscription_filter.js:208 | Returns the index of the first group whose name equals the searched name exactly, or none when no group on the page has that name. |
| LogGroupSearch.FindLogGroupArn | src/serverless_plugin_subscription_filter.js:193-219 | The corrected search fails only with not-found, page-limit or provider errors. With no pages left to read it reports the page limit. |
| LogGroupSearch.FindLogGroupArnMeetsChain | src/serverless_plugin_subscription_filter.js:193-219 | For every fetch, stopping at the first page with a match gives the same answer as reading every page the tokens reach and taking the first exact match. When nothing matches, the error is the reason the page chain ended. |
| LogGroupSearch.SearchReturnsExactMatch | src/serverless_plugin_subscription_filter.js:208-213 | A returned ARN belongs to a group on a page the search reached, whose name equals the searched name. A group that merely shares the prefix is never returned. |
| LogGroupSearch.SearchNotFoundWhenNoPageHasName | src/serverless_plugin_subscription_filter.js:204-211 | The search reports "LogGroup not found" if and only if no page reached holds the name and the chain ended on an empty page or a missing token. |
| LogGroupSearch.EmptyPageIsNotFound | src/serverless_plugin_subscription_filter.js:204-206 | An empty page ends the search with "LogGroup not found". |
| LogGroupSearch.MatchOnPageStopsSearch | src/serverless_plugin_subscription_filter.js:208-213 | A match on the current page is returned whatever later pages would hold. |
| LogGroupSearch.SearchAsWritten | src/serverless_plugin_subscription_filter.js:193-219 | As written, the promise resolves only from a page it fetched itself. It rejects only with "LogGroup not found" or a provider error. |
| LogGroupSearch.AsWrittenResolutionAgrees | src/serverless_plugin_subscription_filter.js:201-213 | Whenever the search as written does resolve, the corrected search returns the same ARN. |
| LogGroupSearch.LaterPageMatchNeverResolves | src/serverless_plugin_subscription_filter.js:208-213 | Searching `/abc` over pages for the prefix `/abc`, with `/abcd` on the first page and `/abc` behind its token, leaves the search as written pending for any number of pages read. The corrected search returns the ARN of `/abc`. |
| LogGroupSearch.MissingTokenRestartsSearch | src/serverless_plugin_subscription_filter.js:193-210 | A single page without a match and without a token keeps the search as written pending, because it re-reads the first page. The corrected search reports not found. |
| JsonString.EscapeDoubleQuote | src/serverless_plugin_subscription_filter.js:277-279 | Each `"` becomes `\"`. The length grows by the number of quotes, and each quote adds one backslash. Every other character comes from the input. |
| JsonString.EscapeDoubleQuoteOneChar | src/serverless_plugin_subscription_filter.js:277-279 | On a single character the escape gives `\"` for `"` and the character itself for anything else. |
| JsonString.EscapeDoubleQuoteAppend | src/serverless_plugin_subscription_filter.js:277-279 | The escape of a concatenation is the concatenation of the escapes, so with the one-character case it is determined character by character. |
| JsonString.EscapeDoubleQuoteWithoutQuote | src/serverless_plugin_subscription_filter.js:277-279 | Text without a double quote passes `escapeDoubleQuote` unchanged. |
| JsonString.UnescapeQuotesInvertsEscape | src/serverless_plugin_subscription_filter.js:277-279 | For inputs without a backslash, undoing the quote escape gives back the input. |
| JsonString.EscapeDoubleQuoteRoundTrip | src/serverless_plugin_subscription_filter.js:147-162 | A pattern without backslashes or control characters survives embedding and `JSON.parse` unchanged. |
| JsonString.EscapeDoubleQuoteBreaksOnBackslash | src/serverless_plugin_subscription_filter.js:147-162 | The pattern made of a backslash and `n` parses back as a newline. |
| JsonString.EscapeDoubleQuoteFailsOnTrailingBackslash | src/serverless_plugin_subscription_filter.js:147-162 | A pattern ending in a backslash makes `JSON.parse` fail. |
| JsonString.EscapeDoubleQuoteFailsOnRegexEscape | src/serverless_plugin_subscription_filter.js:147-162 | The pattern made of a backslash and `d`, as in a regular expression, makes `JSON.parse` fail with a bad escape. |
| JsonString.DecodeJsonString | src/serverless_plugin_subscription_filter.js:162 | `JSON.parse` of a string literal: a decoded value is never longer than the literal's text. |
| JsonString.PlainTextDecodesToItself | src/serverless_plugin_subscription_filter.js:162 | Text without a quote, a backslash or a control character decodes to itself. |
| JsonString.SurrogatePairDecodes | src/serverless_plugin_subscription_filter.js:162 | The escape pair `\uD83D\uDE00` decodes to the single character U+1F600. |
| JsonString.LoneSurrogateRejected | src/serverless_plugin_subscription_filter.js:162 | The model rejects a high-surrogate escape without its low half (`JSON.parse` accepts it; see Left out). |
| JsonString.EscapeJsonString | src/serverless_plugin_subscription_filter.js:147-162 | The corrected escape: parsing the escaped text gives back every input exactly, and the escaped text holds no control character. |
| Fragments.LogsPrincipal | src/serverless_plugin_subscription_filter.js:179 | The principal is "logs.", then the region, then ".amazonaws.com". |
| Fragments.CompilePermission | src/serverless_plugin_subscription_filter.js:169-191 | The permission fragment is an `AWS::Lambda::Permission` under the permission logical ID. Its action is `lambda:InvokeFunction`, its principal is the region's logs service and its source ARN is the log group ARN. It targets the function's `Arn` attribute. |
| Fragments.ParsedFilterPattern | src/serverless_plugin_subscription_filter.js:147-162 | The pattern as written into the template by `escapeDoubleQuote` and read back by `JSON.parse`: it comes back unchanged whenever it holds no backslash and no control character. |
| Fragments.CompileSubscriptionFilter | src/serverless_plugin_subscription_filter.js:143-167 | With the corrected escape, the subscription fragment is an `AWS::Logs::SubscriptionFilter` under the subscription logical ID. Its pattern is what `JSON.parse` reads back from the escaped pattern, which is the configured pattern. It carries the log group name, targets the function's `Arn`, and depends on the permission's logical ID. |
| Fragments.CompileSubscriptionFilterAsWritten | src/serverless_plugin_subscription_filter.js:143-167 | As written, the fragment is built exactly when `DecodeJsonString` accepts the quote-escaped pattern, and otherwise fails with that parse error. When built, it is the corrected fragment except that its pattern is the value read back. The two agree whenever the pattern reads back unchanged. |
| Fragments.LoneSurrogatePatternRejectedAsWritten | src/serverless_plugin_subscription_filter.js:147-162 | The pattern `\uD83D` passes `escapeDoubleQuote` unchanged, and the fragment as written then fails in the model with the surrogate error, where `JSON.parse` accepts it (see Left out). |
| Fragments.FragmentsOfPairAgree | src/serverless_plugin_subscription_filter.js:143-191 | The subscription depends on the permission, under a different logical ID, and both target the same function. |
| Orchestrator.SelectJobs | src/serverless_plugin_subscription_filter.js:24-39 | The jobs selected are no more than the events, and every one has a well-formed setting naming the active stage. |
| Orchestrator.SelectJobsFailsOnFirstInvalid | src/serverless_plugin_subscription_filter.js:24-39 | Selection fails exactly when some event's setting is invalid, whatever stage it names. It reports the field of the first invalid event in function-then-event order. |
| Orchestrator.SelectJobsIsOrderedSelection | src/serverless_plugin_subscription_filter.js:24-39 | On success the jobs are exactly the events whose setting is valid and names the active stage, one job each, in function-then-event order. |
| Orchestrator.NoMatchingStageNoJobs | src/serverless_plugin_subscription_filter.js:30-35 | When every event is either without a setting or valid for another stage, no job is selected. |
| Orchestrator.SelectJobsAppend | src/serverless_plugin_subscription_filter.js:24-27 | Selecting over one function's events followed by the rest: the first function's failure wins, otherwise its jobs come first. |
| Orchestrator.CompileJobs | src/serverless_plugin_subscription_filter.js:19-43 | The outer loop over functions returns the selection `SelectJobs` defines, including its first-invalid error. |
| Orchestrator.CompileEventJobs | src/serverless_plugin_subscription_filter.js:27-39 | The inner loop over one function's events returns the selection `SelectJobs` defines for those events. |
| Compiler.CompilePair | src/serverless_plugin_subscription_filter.js:81-91 | With the corrected escape, the fragments are built exactly when both the limit check and the ARN lookup succeed. The limit check's error comes first, then the lookup's. |
| Compiler.Merge | src/serverless_plugin_subscription_filter.js:84-96 | Merging a pair adds exactly its two logical IDs, stores the subscription filter under its ID and the permission under its own when the IDs differ, and keeps every other entry. |
| Compiler.DoCompile | src/serverless_plugin_subscription_filter.js:78-101 | With the corrected escape, a failed job leaves the template unchanged and raises the failing step's message. A successful job adds exactly the permission and subscription IDs, with those exact resources, and every other entry is kept. |
| Compiler.DoCompileAsWritten | src/serverless_plugin_subscription_filter.js:78-101 | As written, a failed limit check or a rejected search leaves the template unchanged and raises that step's message, whatever the pattern. The job stays pending exactly when the log-group search as written does. It raises no error exactly when the limit check passes, the search resolves and `DecodeJsonString` accepts the escaped pattern. When only the parse fails, the permission stays merged and the job raises the syntax error. When the search settles and the pattern reads back unchanged, the job is the corrected one. |
| Compiler.LaterPageJobNeverSettles | src/serverless_plugin_subscription_filter.js:201-213 | With the example's log group only on the second page, the corrected job compiles, while the job as written stays pending for any number of pages read and merges nothing. |
| Compiler.RegexPatternHalfCompiles | src/serverless_plugin_subscription_filter.js:84-101 | For the pattern `\d` in the worked example, the corrected job adds both resources with the pattern `\d`. The job as written fails with the syntax error and leaves exactly the permission in the template. |
| Compiler.DoCompileError | src/serverless_plugin_subscription_filter.js:98-100 | A job reports no error when its fragments compile, and otherwise the message of the step that failed. |
| Compiler.RunAll | src/serverless_plugin_subscription_filter.js:37-42 | Running the jobs, each compiled by the corrected `Compiler.DoCompile`, never removes an entry, and an error needs at least one job. |
| Compiler.RunAllSucceedsIffEveryJobDoes | src/serverless_plugin_subscription_filter.js:37-42 | The run raises no error if and only if every selected job compiles. |
| Compiler.RunAllReportsFirstFailure | src/serverless_plugin_subscription_filter.js:37-42 | A failed run reports the message of the first failing job, and every job before it compiled. |
| Compiler.RunAllResources | src/serverless_plugin_subscription_filter.js:84-97 | After the run, the template's keys are the old keys plus the logical IDs of every successful job, and every other entry is unchanged. |
| Compiler.MergeCommutes | src/serverless_plugin_subscription_filter.js:84-97 | Merging two pairs of fragments with disjoint logical IDs gives the same template in either order. |
| Compiler.RunOne | src/serverless_plugin_subscription_filter.js:78-101 | Running a single job changes the template only by merging its fragments, if it compiled. |
| Compiler.MergeOrderIrrelevant | src/serverless_plugin_subscription_filter.js:37-42 | Two jobs with distinct logical IDs leave the same template whichever finishes first. |
| Compiler.CompileSubscriptionFilterEvents | src/serverless_plugin_subscription_filter.js:19-43 | Selection fails exactly when some event's setting is invalid; then the template is untouched and the error names the field of the first invalid event in function-then-event order. The hook raises no error exactly when selection succeeds and every selected job compiles. On a successful selection the template's keys become the old keys plus those of the compiled jobs, every other entry is kept, and a failed run reports the first failing job's message. |
| Compiler.InvalidSettingAborts | src/serverless_plugin_subscription_filter.js:24-40 | Any event with an invalid setting makes the hook fail and leaves the template untouched. |
| Compiler.NothingSelectedNothingChanges | src/serverless_plugin_subscription_filter.js:30-42 | With no valid setting for the active stage and none invalid, the hook succeeds and the template is unchanged. |
| Compiler.ExampleJobCompiles | src/serverless_plugin_subscription_filter.js:78-191 | Function `foo`, log group `/svc/x`, pattern `ERROR`, no existing filter, log group ARN `lg-arn-1`: the job adds exactly the two expected resources under `FooLambdaPermissionsvcx` and `FooSubscriptionFiltersvcx`. |
| Compiler.ExampleSelectsOneJob | src/serverless_plugin_subscription_filter.js:24-39 | The example configuration (function `foo`, one event with stage `dev`, log group `/svc/x`, pattern `ERROR`), selected for stage `dev`, yields exactly one job, for `foo` with that setting. |
| Compiler.EndToEndExample | src/serverless_plugin_subscription_filter.js:19-43 | The hook run on that configuration turns an empty template into exactly those two resources and raises no error. |

## Left out

- `src/index.js` is not part of this model. It holds an older variant of the plugin class, with `after:deploy` and `after:remove` hooks (`loopEvents`, `register`, `remove`) that put and delete subscription filters through the AWS SDK directly, instead of compiling them into the template.
- The constructor's `AWS.config.update` and hook registration are left out. The model has no AWS client.
- The AWS calls are inputs: `getAccountId`, `describeSubscriptionFilters` and `describeLogGroups` are functions of `Compiler.Aws`. No network, retry or timeout is modelled. The source calls `getAccountId` once per job (line 246) and the other calls once per job or page; the model gives each call one fixed answer for the whole run, so the provider is assumed to answer the same question the same way every time.
- `cli.log` progress messages are left out. They have no effect on the result.
- The Serverless naming helpers (`getLambdaLogicalId`, `getNormalizedFunctionName`, `normalizeNameToAlphaNumericOnly`) are uninterpreted functions. Their injectivity is not assumed, so nothing is proved about two different log groups mapping to distinct IDs.
- Concurrency is not modelled. The selected jobs run one after another in selection order, every successful job merges, and the first failing job's message is the reported error. `Compiler.MergeOrderIrrelevant` shows that completion order does not change the template when logical IDs are distinct.
- In the source, a job that fails after other jobs have already merged leaves those merges in place. The model keeps them too. Pipelines still running when the aggregate promise rejects are not cancelled in the source; the model runs them to completion.
- An invalid setting throws synchronously inside the loop, after earlier selected jobs have already been launched. The model reports the configuration error before running any job, so those earlier in-flight pipelines are left out.
- LimitCheck.CheckResourceLimit: when both `describeSubscriptionFilters` and `getAccountId` reject, `Promise.all` reports whichever settles first. The model always reports the `describeSubscriptionFilters` error.
- `_.merge` is a deep merge. The model replaces the entry under each logical ID. The two agree on a new key. They also agree when a key is merged again, for example when two selected events share a function and log group, or their names normalize to the same IDs: the later fragment has the same shape as the earlier one, so the deep merge overwrites every leaf, which is the replacement. Entries of another shape written by another plugin under the same IDs are where they would differ.
- The JSON templates are modelled as the structured values `JSON.parse` makes of them, except for the filter pattern, whose escaping and read-back are modelled textually. A `logGroupName`, logical ID or ARN containing `"` or `\` would also break the source's template parsing; the model does not represent that failure. CloudWatch Logs group names cannot contain either character.
- Fragments.CompileSubscriptionFilter, Compiler.CompilePair and Compiler.DoCompile use the corrected escape and the corrected, page-bounded log-group search, so their filter pattern is always the configured one, a log group on a later page is found, and the only failures are the limit check's and the lookup's. The source, which uses `escapeDoubleQuote` (lines 147-162), stores a different pattern for `\n` and throws for `\d`, a trailing `\` or a control character, after the permission has already been merged (lines 84-88); and its search never settles on a later-page match or a page without a token. That behaviour is modelled by `Fragments.CompileSubscriptionFilterAsWritten` and `Compiler.DoCompileAsWritten`, shown by `Compiler.RegexPatternHalfCompiles` and `Compiler.LaterPageJobNeverSettles`, and listed under Findings.
- Compiler.RunAll runs the corrected `Compiler.DoCompile` for every job. For a pattern with `\d`, a trailing `\` or a control character, or a log group found only on a later page, a job of the source rejects or never settles, where the model's job succeeds; the run as written, with such jobs, is not modelled.
- Compiler.CompileSubscriptionFilterEvents runs `Compiler.RunAll`, so the hook is modelled with the corrected escape and search: on the inputs just named, its "no error exactly when every job compiles" holds of the corrected jobs, while the source's hook rejects or never settles.
- Fragments.CompileSubscriptionFilterAsWritten: a pattern holding a `\uD800`–`\uDFFF` escape that is not half of a surrogate pair passes `escapeDoubleQuote` unchanged and is accepted by `JSON.parse`, so the source builds the fragment. The model fails it with `TemplateSyntaxError` (`Fragments.LoneSurrogatePatternRejectedAsWritten` shows `\uD83D`).
- Compiler.DoCompileAsWritten: for such a pattern the source merges both resources, while the model's job fails with `TemplateSyntaxError` after the permission has been merged.
- Compiler.DoCompileAsWritten reads at most `fuel` pages. `Unsettled` means the search was still pending after them; the source has no such bound, and `Compiler.LaterPageJobNeverSettles` shows pending for every bound.
- Errors.Message: the text of the `SyntaxError` that `JSON.parse` throws depends on the JavaScript engine and the position of the bad character. The model reports one fixed text for it.
- JsonString.DecodeJsonString decodes a `\uD800`–`\uDBFF` escape followed by a `\uDC00`–`\uDFFF` escape as the one character the pair encodes, as `JSON.parse` does. It rejects a surrogate escape that is not half of such a pair, where `JSON.parse` accepts it as a lone UTF-16 code unit: Dafny's `char` has no surrogate values.
- JsonString.LoneSurrogateRejected states the model's rejection of `\uD83D` alone. `JSON.parse` accepts that text and yields the lone code unit U+D83D, which a Dafny `string` cannot hold; the lemma documents where the model and `JSON.parse` part.
- A truthy non-object `subscriptionFilter` (a number, `true`, a string) is modelled as a present setting whose fields are all `undefined`. It is reported as a missing `stage`, as in the source.
- `filterName` is never read by the source and is not modelled.
- LogGroupSearch.FindLogGroupArn reads at most `MaxPages` (100) pages and then fails with "LogGroup not found within the page limit". The source has no such cap. Without it the corrected search would not terminate when the provider returns tokens forever.

## Findings

| source | as written | input that shows it | evidently intended | confidence | as-written member | corrected member |
|---|---|---|---|---|---|---|
| src/serverless_plugin_subscription_filter.js:208-213 | When the name is not on the current page, the recursive `getLogGroupArn` call's promise is returned into the `.then` chain but never passed to the outer `resolve`. A match on any later page never reaches the caller, and the compile hangs. | Search for `/abc`, so the pages are those for the prefix `/abc`: page 1 holds `/abcd` and token `t`; page `t` holds `/abc`. | Resolve with the ARN of the first exact match on any page reached | not executed; the hang needs a provider that does not list the exact name first, and DescribeLogGroups is documented to return names in ASCII order, which puts the exact match first on page 1 | LogGroupSearch.LaterPageMatchNeverResolves | LogGroupSearch.FindLogGroupArnMeetsChain |
| src/serverless_plugin_subscription_filter.js:193-210 | A page without a match and without `nextToken` recurses with `undefined`. That becomes the default `null`, which fetches the first page again, forever. | One page holding only `/ab`, with no token. Search for `/a`. | Fail with "LogGroup not found" once no token is left | not executed | LogGroupSearch.MissingTokenRestartsSearch | LogGroupSearch.SearchNotFoundWhenNoPageHasName |
| src/serverless_plugin_subscription_filter.js:277-279 | `escapeDoubleQuote` escapes only `"` before the pattern is written into a JSON string literal and parsed back (lines 147-162). A backslash or control character in the pattern is reinterpreted or makes `JSON.parse` throw. | Filter pattern made of a backslash and `n` (parses back as a newline). Or a pattern ending in a backslash (`JSON.parse` fails). | The `FilterPattern` property equals the configured pattern for every pattern | not executed | JsonString.EscapeDoubleQuoteBreaksOnBackslash | JsonString.EscapeJsonString |
| src/serverless_plugin_subscription_filter.js:84-101 | Through the escape above, a pattern such as the regular expression `\d` makes `compileSubscriptionFilter` throw after the permission was merged into `Resources`. The job fails with a `SyntaxError`, and the template keeps a permission without its subscription filter. | Function `foo`, log group `/svc/x`, pattern `\d`, no existing filter, the log group found. | The job adds both resources, with the pattern `\d` | not executed | Compiler.RegexPatternHalfCompiles | Compiler.DoCompile |

The corrected members are the ones the rest of the model uses:

- `Compiler.LookupStep` runs `LogGroupSearch.FindLogGroupArn`.
- `Fragments.CompileSubscriptionFilter` stores the pattern `JsonString.EscapeJsonString` reads back as, which is the configured pattern. `Compiler.DoCompile`, and so the whole hook, builds its subscription filter that way.

=== FILE: compiler.dfy ===
/**
  The compile pipeline (`doCompile`) and the hook that runs it for every
  selected event (`compileSubscriptionFilterEvents`). The answers of the AWS
  calls are inputs; the template's `Resources` is a map from logical ID to
  resource, and merging a fragment is a map update.
*/
module Compiler {
  import opened Wrappers
  import opened Naming
  import opened Settings
  import opened Errors
  import opened LimitCheck
  import opened LogGroupSearch
  import opened Fragments
  import opened Orchestrator
  import opened JsonString

  /** What the AWS calls answer during one compile. */
  datatype Aws = Aws(
    accountId: Result<string, string>,                                          // provider.getAccountId
    describeSubscriptionFilters: string -> Result<seq<SubscriptionFilterInfo>, string>,  // by log group name
    describeLogGroups: (string, Option<string>) -> Result<Page, string>        // by name prefix and token
  )

  /** `compiledCloudFormationTemplate.Resources`. */
  type Resources = map<string, Resource>

  /** The state of the template after a run, and the message of the error it raised, if any. */
  datatype Run = Run(resources: Resources, error: Option<string>)

  /** The pages `describeLogGroups` returns for the prefix `prefix`. */
  function LogGroupPages(aws: Aws, prefix: string): Fetch {
    t => aws.describeLogGroups(prefix, t)
  }

  /** Step 1 of `doCompile`: the resource-limit check. */
  function LimitStep(env: Env, aws: Aws, setting: Setting, functionName: string): Result<(), CompileError> {
    CheckResourceLimit(env, setting.logGroupName, functionName,
      aws.describeSubscriptionFilters(setting.logGroupName), aws.accountId)
  }

  /** Step 2 of `doCompile`: the log group's ARN, searched from the first page. */
  function LookupStep(aws: Aws, setting: Setting): Result<string, CompileError> {
    FindLogGroupArn(LogGroupPages(aws, setting.logGroupName), setting.logGroupName, None, MaxPages)
  }

  datatype Pair = Pair(permission: Fragment, subscription: Fragment)

  /** The two fragments of one job, built once both checks have passed. */
  function CompilePair(env: Env, aws: Aws, setting: Setting, functionName: string): (r: Result<Pair, CompileError>)
    ensures LimitStep(env, aws, setting, functionName).Failure? ==> r == Failure(LimitStep(env, aws, setting, functionName).error)
    ensures LimitStep(env, aws, setting, functionName).Success? && LookupStep(aws, setting).Failure? ==>
      r == Failure(LookupStep(aws, setting).error)
    ensures r.Success? <==> LimitStep(env, aws, setting, functionName).Success? && LookupStep(aws, setting).Success?
  {
    var _ :- LimitStep(env, aws, setting, functionName);
    var logGroupArn :- LookupStep(aws, setting);
    Success(Pair(CompilePermission(env, setting, functionName, logGroupArn), CompileSubscriptionFilter(env, setting, functionName)))
  }

  /** Merging the permission and then the subscription filter into the template. */
  function Merge(resources: Resources, p: Pair): (r: Resources)
    ensures r.Keys == resources.Keys + {p.permission.logicalId, p.subscription.logicalId}
    ensures r[p.subscription.logicalId] == p.subscription.resource
    ensures p.permission.logicalId != p.subscription.logicalId ==> r[p.permission.logicalId] == p.permission.resource
    ensures forall k :: k in resources && k != p.permission.logicalId && k != p.subscription.logicalId ==>
      r[k] == resources[k]
  {
    resources[p.permission.logicalId := p.permission.resource][p.subscription.logicalId := p.subscription.resource]
  }

  /**
    `doCompile(setting, functionName)`: limit check, then ARN lookup, then the
    permission merged, then the subscription filter merged. A failure leaves
    the template as it was and re-raises the error's message.
  */
  function DoCompile(env: Env, aws: Aws, setting: Setting, functionName: string, resources: Resources): (r: Run)
    ensures r.error.None? <==> LimitStep(env, aws, setting, functionName).Success? && LookupStep(aws, setting).Success?
    ensures r.error.Some? ==> r.resources == resources
    ensures LimitStep(env, aws, setting, functionName).Failure? ==>
      r.error == Some(Message(LimitStep(env, aws, setting, functionName).error))
    ensures LimitStep(env, aws, setting, functionName).Success? && LookupStep(aws, setting).Failure? ==>
      r.error == Some(Message(LookupStep(aws, setting).error))
    ensures r.error.None? ==>
      var permissionId := PermissionLogicalId(env.naming, functionName, setting.logGroupName);
      var subscriptionId := SubscriptionFilterLogicalId(env.naming, functionName, setting.logGroupName);
      && r.resources.Keys == resources.Keys + {permissionId, subscriptionId}
      && (forall k :: k in resources && k != permissionId && k != subscriptionId ==> r.resources[k] == resources[k])
      && r.resources[permissionId]
         == LambdaPermission(FunctionArnRef(env, functionName), "lambda:InvokeFunction",
                             LogsPrincipal(env.region), LookupStep(aws, setting).value)
      && r.resources[subscriptionId]
         == LogsSubscriptionFilter(FunctionArnRef(env, functionName), setting.filterPattern,
                                   setting.logGroupName, permissionId)
  {
    match CompilePair(env, aws, setting, functionName)
    case Failure(e) => Run(resources, Some(Message(e)))
    case Success(p) =>
      PermissionAndSubscriptionIdsDiffer(env.naming, functionName, setting.logGroupName);
      Run(Merge(resources, p), None)
  }

  /** How a job as written ends: it settles with a run, or it never settles. */
  datatype Outcome = Settled(run: Run) | Unsettled

  /** Step 2 as written: `getLogGroupArn` from the first page, reading at most `fuel` pages. */
  function LookupAsWritten(aws: Aws, setting: Setting, fuel: nat): Settlement {
    SearchAsWritten(LogGroupPages(aws, setting.logGroupName), setting.logGroupName, None, fuel)
  }

  /**
    `doCompile` as written: the log-group search of `getLogGroupArn` as
    written, whose later-page match never settles, and `compileSubscriptionFilter`
    as written, whose `JSON.parse` can throw after the permission has already
    been merged. A search still pending after `fuel` pages leaves the job
    unsettled.
  */
  function DoCompileAsWritten(env: Env, aws: Aws, setting: Setting, functionName: string, resources: Resources, fuel: nat)
    : (r: Outcome)
    // a failed limit check or a rejected search leaves the template as it was, whatever the pattern
    ensures LimitStep(env, aws, setting, functionName).Failure? ==>
      r == Settled(Run(resources, Some(Message(LimitStep(env, aws, setting, functionName).error))))
    ensures LimitStep(env, aws, setting, functionName).Success? && LookupAsWritten(aws, setting, fuel).Rejected? ==>
      r == Settled(Run(resources, Some(Message(LookupAsWritten(aws, setting, fuel).error))))
    // the job stays pending exactly when the search does
    ensures r.Unsettled? <==>
      LimitStep(env, aws, setting, functionName).Success? && LookupAsWritten(aws, setting, fuel).Pending?
    ensures r.Settled? && r.run.error.None? <==>
      && LimitStep(env, aws, setting, functionName).Success? && LookupAsWritten(aws, setting, fuel).Resolved?
      && ParsedFilterPattern(setting.filterPattern).Success?
    // a pattern `JSON.parse` rejects fails the job after the permission was merged
    ensures LimitStep(env, aws, setting, functionName).Success? && LookupAsWritten(aws, setting, fuel).Resolved?
            && ParsedFilterPattern(setting.filterPattern).Failure? ==>
      r == Settled(Run(
             resources[PermissionLogicalId(env.naming, functionName, setting.logGroupName) :=
               LambdaPermission(FunctionArnRef(env, functionName), "lambda:InvokeFunction",
                                LogsPrincipal(env.region), LookupAsWritten(aws, setting, fuel).arn)],
             Some(Message(TemplateSyntaxError(ParsedFilterPattern(setting.filterPattern).error)))))
    // a search that settles and a pattern that reads back unchanged: the corrected job
    ensures !LookupAsWritten(aws, setting, fuel).Pending?
            && ParsedFilterPattern(setting.filterPattern) == Success(setting.filterPattern)
            && (LimitStep(env, aws, setting, functionName).Success? ==> LookupAsWritten(aws, setting, fuel).Resolved?) ==>
      r == Settled(DoCompile(env, aws, setting, functionName, resources))
  {
    match LimitStep(env, aws, setting, functionName)
    case Failure(e) => Settled(Run(resources, Some(Message(e))))
    case Success(_) =>
      match LookupAsWritten(aws, setting, fuel)
      case Pending => Unsettled
      case Rejected(e) => Settled(Run(resources, Some(Message(e))))
      case Resolved(arn) =>
        AsWrittenResolutionAgrees(LogGroupPages(aws, setting.logGroupName), setting.logGroupName, None, fuel, MaxPages);
        var permission := CompilePermission(env, setting, functionName, arn);
        var merged := resources[permission.logicalId := permission.resource];
        match CompileSubscriptionFilterAsWritten(env, setting, functionName)
        case Failure(e) => Settled(Run(merged, Some(Message(TemplateSyntaxError(e)))))
        case Success(subscription) => Settled(Run(merged[subscription.logicalId := subscription.resource], None))
  }

  /**
    The regular-expression pattern `\d`: the corrected job compiles both
    resources, while the job as written fails with the permission already in
    the template and no subscription filter.
  */
  lemma RegexPatternHalfCompiles()
    ensures var corrected := DoCompile(ExampleEnv(), ExampleAws(), RegexSetting(), "foo", map[]);
      && corrected.error == None
      && "FooSubscriptionFiltersvcx" in corrected.resources
      && corrected.resources["FooSubscriptionFiltersvcx"].filterPattern == [Backslash, 'd']
    ensures var asWritten := DoCompileAsWritten(ExampleEnv(), ExampleAws(), RegexSetting(), "foo", map[], MaxPages);
      && asWritten.Settled?
      && asWritten.run.error == Some(Message(TemplateSyntaxError(BadEscape)))
      && asWritten.run.resources.Keys == {"FooLambdaPermissionsvcx"}
  {
    var env, aws, setting := ExampleEnv(), ExampleAws(), RegexSetting();
    assert FindIndex([LogGroup("/svc/x", "lg-arn-1")], "/svc/x") == Some(0);
    assert LookupStep(aws, setting) == Success("lg-arn-1");
    assert LimitStep(env, aws, setting, "foo") == Success(());
    EscapeDoubleQuoteFailsOnRegexEscape();
    assert ParsedFilterPattern(setting.filterPattern) == Failure(BadEscape);
    ExamplePermissionId();
    ExampleSubscriptionId();
  }

  /**
    The example job with its log group on the second page: the corrected job
    compiles, while the job as written never settles, however many pages it
    may read, and merges nothing.
  */
  lemma LaterPageJobNeverSettles(fuel: nat)
    ensures DoCompile(ExampleEnv(), LaterPageAws(), ExampleSetting(), "foo", map[]).error == None
    ensures DoCompileAsWritten(ExampleEnv(), LaterPageAws(), ExampleSetting(), "foo", map[], fuel) == Unsettled
  {
    var env, aws, setting := ExampleEnv(), LaterPageAws(), ExampleSetting();
    assert LimitStep(env, aws, setting, "foo") == Success(());
    assert FindIndex([LogGroup("/svc/xy", "lg-arn-2")], "/svc/x") == None;
    assert FindIndex([LogGroup("/svc/x", "lg-arn-1")], "/svc/x") == Some(0);
    assert LookupStep(aws, setting) == Success("lg-arn-1");
    var fetch := LogGroupPages(aws, "/svc/x");
    if fuel > 0 {
      assert fetch(None) == Success(Page([LogGroup("/svc/xy", "lg-arn-2")], Some("t")));
      assert fetch(Some("t")) == Success(Page([LogGroup("/svc/x", "lg-arn-1")], None));
      var later := SearchAsWritten(fetch, "/svc/x", Some("t"), fuel - 1);
      assert later == Pending || later == Resolved("lg-arn-1");
    }
    assert LookupAsWritten(aws, setting, fuel) == Pending;
  }

  /** The logical IDs a job adds to the template: none when it fails. */
  function JobKeys(env: Env, aws: Aws, job: Job): set<string> {
    match CompilePair(env, aws, job.setting, job.functionName)
    case Success(p) => {p.permission.logicalId, p.subscription.logicalId}
    case Failure(_) => {}
  }

  /** The logical IDs all successful jobs add. */
  function CompiledKeys(env: Env, aws: Aws, jobs: seq<Job>): set<string> {
    set j, k | j in jobs && k in JobKeys(env, aws, j) :: k
  }

  /**
    The jobs launched by the hook. Every job runs to completion and merges on
    success; the run's error is that of the first failing job.
  */
  function RunAll(env: Env, aws: Aws, jobs: seq<Job>, resources: Resources): (r: Run)
    ensures resources.Keys <= r.resources.Keys
    ensures r.error.Some? ==> jobs != []
  {
    if jobs == [] then Run(resources, None)
    else
      var first := DoCompile(env, aws, jobs[0].setting, jobs[0].functionName, resources);
      var rest := RunAll(env, aws, jobs[1..], first.resources);
      Run(rest.resources, if first.error.Some? then first.error else rest.error)
  }

  /** A job's run reports no error on success and its failure's message otherwise. */
  lemma DoCompileError(env: Env, aws: Aws, job: Job, resources: Resources)
    ensures DoCompile(env, aws, job.setting, job.functionName, resources).error
         == if CompilePair(env, aws, job.setting, job.functionName).Success? then None
            else Some(Message(CompilePair(env, aws, job.setting, job.functionName).error))
  {
  }

  /** The run succeeds exactly when every job does. */
  lemma {:induction false} RunAllSucceedsIffEveryJobDoes(env: Env, aws: Aws, jobs: seq<Job>, resources: Resources)
    ensures RunAll(env, aws, jobs, resources).error.None?
        <==> forall i :: 0 <= i < |jobs| ==> CompilePair(env, aws, jobs[i].setting, jobs[i].functionName).Success?
  {
    if jobs != [] {
      var first := DoCompile(env, aws, jobs[0].setting, jobs[0].functionName, resources);
      DoCompileError(env, aws, jobs[0], resources);
      var rest := jobs[1..];
      RunAllSucceedsIffEveryJobDoes(env, aws, rest, first.resources);
      assert RunAll(env, aws, jobs, resources).error
          == if first.error.Some? then first.error else RunAll(env, aws, rest, first.resources).error;
      assert forall i :: 1 <= i < |jobs| ==> rest[i - 1] == jobs[i];
    }
  }

  /** The reported error is the message of the first job that fails. */
  lemma {:induction false} RunAllReportsFirstFailure(env: Env, aws: Aws, jobs: seq<Job>, resources: Resources)
    ensures RunAll(env, aws, jobs, resources).error.Some? ==> exists i :: (0 <= i < |jobs|
      && CompilePair(env, aws, jobs[i].setting, jobs[i].functionName).Failure?
      && RunAll(env, aws, jobs, resources).error
         == Some(Message(CompilePair(env, aws, jobs[i].setting, jobs[i].functionName).error))
      && forall j :: 0 <= j < i ==> CompilePair(env, aws, jobs[j].setting, jobs[j].functionName).Success?)
  {
    if jobs == [] || RunAll(env, aws, jobs, resources).error.None? {
      return;
    }
    var first := DoCompile(env, aws, jobs[0].setting, jobs[0].functionName, resources);
    DoCompileError(env, aws, jobs[0], resources);
    var rest := jobs[1..];
    if first.error.None? {
      assert RunAll(env, aws, jobs, resources).error == RunAll(env, aws, rest, first.resources).error;
      RunAllReportsFirstFailure(env, aws, rest, first.resources);
      assert RunAll(env, aws, rest, first.resources).error.Some?;
      var i :| 0 <= i < |rest|
        && CompilePair(env, aws, rest[i].setting, rest[i].functionName).Failure?
        && RunAll(env, aws, rest, first.resources).error
           == Some(Message(CompilePair(env, aws, rest[i].setting, rest[i].functionName).error))
        && forall j :: 0 <= j < i ==> CompilePair(env, aws, rest[j].setting, rest[j].functionName).Success?;
      assert jobs[i + 1] == rest[i];
      forall j | 0 <= j < i + 1 ensures CompilePair(env, aws, jobs[j].setting, jobs[j].functionName).Success? {
        if j > 0 { assert jobs[j] == rest[j - 1]; }
      }
    } else {
      assert RunAll(env, aws, jobs, resources).error == first.error;
    }
  }

  /** The keys of a run of jobs: those of the first job and those of the rest. */
  lemma CompiledKeysCons(env: Env, aws: Aws, jobs: seq<Job>)
    requires jobs != []
    ensures CompiledKeys(env, aws, jobs) == JobKeys(env, aws, jobs[0]) + CompiledKeys(env, aws, jobs[1..])
  {
    forall k | k in CompiledKeys(env, aws, jobs)
      ensures k in JobKeys(env, aws, jobs[0]) + CompiledKeys(env, aws, jobs[1..])
    {
      var j :| j in jobs && k in JobKeys(env, aws, j);
      var i :| 0 <= i < |jobs| && jobs[i] == j;
      if i > 0 { assert jobs[1..][i - 1] == j; }
    }
    forall k | k in CompiledKeys(env, aws, jobs[1..]) ensures k in CompiledKeys(env, aws, jobs) {
      var j :| j in jobs[1..] && k in JobKeys(env, aws, j);
      assert j in jobs;
    }
    forall k | k in JobKeys(env, aws, jobs[0]) ensures k in CompiledKeys(env, aws, jobs) {
      assert jobs[0] in jobs;
    }
  }

  /**
    After the run the template holds its old resources plus the two fragments
    of every successful job, and every other entry is unchanged.
  */
  lemma {:induction false} RunAllResources(env: Env, aws: Aws, jobs: seq<Job>, resources: Resources)
    ensures RunAll(env, aws, jobs, resources).resources.Keys == resources.Keys + CompiledKeys(env, aws, jobs)
    ensures forall k :: k in resources && k !in CompiledKeys(env, aws, jobs) ==>
      RunAll(env, aws, jobs, resources).resources[k] == resources[k]
  {
    if jobs == [] {
      assert CompiledKeys(env, aws, jobs) == {};
    } else {
      var first := DoCompile(env, aws, jobs[0].setting, jobs[0].functionName, resources);
      RunAllResources(env, aws, jobs[1..], first.resources);
      CompiledKeysCons(env, aws, jobs);
    }
  }

  /** Merges of fragments with different logical IDs commute. */
  lemma MergeCommutes(resources: Resources, p: Pair, q: Pair)
    requires {p.permission.logicalId, p.subscription.logicalId} !! {q.permission.logicalId, q.subscription.logicalId}
    ensures Merge(Merge(resources, p), q) == Merge(Merge(resources, q), p)
  {
    var left := Merge(Merge(resources, p), q);
    var right := Merge(Merge(resources, q), p);
    assert left.Keys == right.Keys;
    forall k | k in left.Keys ensures left[k] == right[k] {
    }
  }

  /** The template after one job: its fragments merged if it compiled, unchanged otherwise. */
  function MergeIfCompiled(resources: Resources, r: Result<Pair, CompileError>): Resources {
    if r.Success? then Merge(resources, r.value) else resources
  }

  /** Running one job changes the template only by merging its fragments. */
  lemma RunOne(env: Env, aws: Aws, job: Job, resources: Resources)
    ensures RunAll(env, aws, [job], resources).resources
         == MergeIfCompiled(resources, CompilePair(env, aws, job.setting, job.functionName))
  {
    assert [job][1..] == [];
  }

  /**
    Two jobs whose logical IDs differ leave the same template whichever
    finishes first, so the completion order of concurrent jobs does not matter.
  */
  lemma MergeOrderIrrelevant(env: Env, aws: Aws, a: Job, b: Job, resources: Resources)
    requires JobKeys(env, aws, a) !! JobKeys(env, aws, b)
    ensures RunAll(env, aws, [a, b], resources).resources == RunAll(env, aws, [b, a], resources).resources
  {
    assert [a, b][1..] == [b] && [b, a][1..] == [a];
    var ra := DoCompile(env, aws, a.setting, a.functionName, resources);
    var rb := DoCompile(env, aws, b.setting, b.functionName, resources);
    RunOne(env, aws, b, ra.resources);
    RunOne(env, aws, a, rb.resources);
    assert RunAll(env, aws, [a, b], resources).resources == RunAll(env, aws, [b], ra.resources).resources;
    assert RunAll(env, aws, [b, a], resources).resources == RunAll(env, aws, [a], rb.resources).resources;
    match (CompilePair(env, aws, a.setting, a.functionName), CompilePair(env, aws, b.setting, b.functionName))
    case (Success(p), Success(q)) =>
      MergeCommutes(resources, p, q);
    case _ =>
  }

  /**
    `compileSubscriptionFilterEvents`: select the jobs for the active stage,
    then run them. An invalid setting anywhere aborts before any job runs.
  */
  function CompileSubscriptionFilterEvents(env: Env, aws: Aws, functions: seq<FunctionDef>, resources: Resources): (r: Run)
    // an invalid setting anywhere: the template is untouched and the first invalid field is reported
    ensures SelectJobs(Sites(functions), env.stage).Failure?
        <==> exists i :: 0 <= i < |Sites(functions)| && Validate(Sites(functions)[i].setting).Invalid?
    ensures SelectJobs(Sites(functions), env.stage).Failure? ==>
      && r.resources == resources
      && exists i :: 0 <= i < |Sites(functions)|
           && Validate(Sites(functions)[i].setting).Invalid?
           && r.error == Some(Message(ConfigurationError(Validate(Sites(functions)[i].setting).field)))
           && forall j :: 0 <= j < i ==> !Validate(Sites(functions)[j].setting).Invalid?
    // otherwise: no error exactly when every selected job compiles
    ensures r.error.None? <==>
      && SelectJobs(Sites(functions), env.stage).Success?
      && var jobs := SelectJobs(Sites(functions), env.stage).value;
         forall i :: 0 <= i < |jobs| ==> CompilePair(env, aws, jobs[i].setting, jobs[i].functionName).Success?
    // the template gains exactly the fragments of the jobs that compiled
    ensures SelectJobs(Sites(functions), env.stage).Success? ==>
      var jobs := SelectJobs(Sites(functions), env.stage).value;
      && r.resources.Keys == resources.Keys + CompiledKeys(env, aws, jobs)
      && forall k :: k in resources && k !in CompiledKeys(env, aws, jobs) ==> r.resources[k] == resources[k]
    // a failed run reports the first failing job
    ensures SelectJobs(Sites(functions), env.stage).Success? && r.error.Some? ==>
      var jobs := SelectJobs(Sites(functions), env.stage).value;
      exists i :: 0 <= i < |jobs|
        && CompilePair(env, aws, jobs[i].setting, jobs[i].functionName).Failure?
        && r.error == Some(Message(CompilePair(env, aws, jobs[i].setting, jobs[i].functionName).error))
        && forall j :: 0 <= j < i ==> CompilePair(env, aws, jobs[j].setting, jobs[j].functionName).Success?
  {
    SelectJobsFailsOnFirstInvalid(Sites(functions), env.stage);
    match SelectJobs(Sites(functions), env.stage)
    case Failure(f) => Run(resources, Some(Message(ConfigurationError(f))))
    case Success(jobs) =>
      RunAllSucceedsIffEveryJobDoes(env, aws, jobs, resources);
      RunAllResources(env, aws, jobs, resources);
      RunAllReportsFirstFailure(env, aws, jobs, resources);
      RunAll(env, aws, jobs, resources)
  }

  /**
    An event with an invalid setting aborts the whole compile, leaving the
    template untouched, whatever stage it names.
  */
  lemma InvalidSettingAborts(env: Env, aws: Aws, functions: seq<FunctionDef>, resources: Resources, i: nat)
    requires i < |Sites(functions)| && Validate(Sites(functions)[i].setting).Invalid?
    ensures CompileSubscriptionFilterEvents(env, aws, functions, resources).resources == resources
    ensures CompileSubscriptionFilterEvents(env, aws, functions, resources).error.Some?
  {
    SelectJobsFailsOnFirstInvalid(Sites(functions), env.stage);
  }

  /** With no valid setting for the active stage and none invalid, the template is left as it was. */
  lemma NothingSelectedNothingChanges(env: Env, aws: Aws, functions: seq<FunctionDef>, resources: Resources)
    requires forall i :: 0 <= i < |Sites(functions)| ==>
      Validate(Sites(functions)[i].setting).NotApplicable?
      || (Validate(Sites(functions)[i].setting).Valid? && Validate(Sites(functions)[i].setting).setting.stage != env.stage)
    ensures CompileSubscriptionFilterEvents(env, aws, functions, resources) == Run(resources, None)
  {
    NoMatchingStageNoJobs(Sites(functions), env.stage);
  }

  // An end-to-end example: function `foo`, stage `dev`, one event for log
  // group `/svc/x` with pattern `ERROR`, no existing subscription filter, and
  // the log group found with ARN `lg-arn-1`.

  function ExampleEnv(): Env {
    Env(Naming(f => "FooLambdaFunction", f => "Foo", g => "svcx"), "svc", "dev", "us-east-1")
  }

  function ExampleAws(): Aws {
    Aws(Success("123456789012"), g => Success([]),
        (prefix, t) => Success(Page([LogGroup("/svc/x", "lg-arn-1")], None)))
  }

  function ExampleSetting(): Setting {
    Setting("dev", "/svc/x", "ERROR")
  }

  /** The example's event with the pattern `\d` instead. */
  function RegexSetting(): Setting {
    Setting("dev", "/svc/x", [Backslash, 'd'])
  }

  /** The example's provider, with `/svc/x` behind a token on the second page after `/svc/xy`. */
  function LaterPageAws(): Aws {
    Aws(Success("123456789012"), g => Success([]),
        (prefix, t) => if t == None then Success(Page([LogGroup("/svc/xy", "lg-arn-2")], Some("t")))
                       else Success(Page([LogGroup("/svc/x", "lg-arn-1")], None)))
  }

  function ExampleFunctions(): seq<FunctionDef> {
    [FunctionDef("foo", [Event(ToRaw(ExampleSetting()))])]
  }

  lemma ExampleSelectsOneJob()
    ensures SelectJobs(Sites(ExampleFunctions()), "dev") == Success([Job(ExampleSetting(), "foo")])
  {
    var sites := Sites(ExampleFunctions());
    assert sites == [Site("foo", ToRaw(ExampleSetting()))];
    ValidateToRaw(ExampleSetting());
    assert SelectJobs(sites[1..], "dev") == Success([]);
    assert SelectJobs(sites, "dev") == SelectStep(sites[0], "dev", SelectJobs(sites[1..], "dev"));
    assert [Job(ExampleSetting(), "foo")] + [] == [Job(ExampleSetting(), "foo")];
  }

  lemma ExamplePrincipal()
    ensures LogsPrincipal("us-east-1") == "logs.us-east-1.amazonaws.com"
  {
    assert "logs." + "us-east-1" + ".amazonaws.com" == "logs.us-east-1.amazonaws.com";
  }

  lemma ExamplePermissionId()
    ensures PermissionLogicalId(ExampleEnv().naming, "foo", "/svc/x") == "FooLambdaPermissionsvcx"
  {
    var n := ExampleEnv().naming;
    assert n.normalizedFunctionName("foo") == "Foo" && n.alphaNumericOnly("/svc/x") == "svcx";
    assert PermissionLogicalId(n, "foo", "/svc/x") == "Foo" + PermissionInfix + "svcx";
    assert "Foo" + "LambdaPermission" == "FooLambdaPermission";
    assert "FooLambdaPermission" + "svcx" == "FooLambdaPermissionsvcx";
  }

  lemma ExampleSubscriptionId()
    ensures SubscriptionFilterLogicalId(ExampleEnv().naming, "foo", "/svc/x") == "FooSubscriptionFiltersvcx"
  {
    var n := ExampleEnv().naming;
    assert n.normalizedFunctionName("foo") == "Foo" && n.alphaNumericOnly("/svc/x") == "svcx";
    assert SubscriptionFilterLogicalId(n, "foo", "/svc/x") == "Foo" + SubscriptionFilterInfix + "svcx";
    assert "Foo" + "SubscriptionFilter" == "FooSubscriptionFilter";
    assert "FooSubscriptionFilter" + "svcx" == "FooSubscriptionFiltersvcx";
  }

  lemma ExampleJobCompiles()
    ensures DoCompile(ExampleEnv(), ExampleAws(), ExampleSetting(), "foo", map[])
         == Run(map[
              "FooLambdaPermissionsvcx" :=
                LambdaPermission(GetAtt("FooLambdaFunction", "Arn"), "lambda:InvokeFunction",
                                 "logs.us-east-1.amazonaws.com", "lg-arn-1"),
              "FooSubscriptionFiltersvcx" :=
                LogsSubscriptionFilter(GetAtt("FooLambdaFunction", "Arn"), "ERROR", "/svc/x", "FooLambdaPermissionsvcx")],
            None)
  {
    var env, aws, setting := ExampleEnv(), ExampleAws(), ExampleSetting();
    assert FindIndex([LogGroup("/svc/x", "lg-arn-1")], "/svc/x") == Some(0);
    assert LookupStep(aws, setting) == Success("lg-arn-1");
    assert LimitStep(env, aws, setting, "foo") == Success(());
    var run := DoCompile(env, aws, setting, "foo", map[]);
    var permissionId := PermissionLogicalId(env.naming, "foo", "/svc/x");
    var subscriptionId := SubscriptionFilterLogicalId(env.naming, "foo", "/svc/x");
    ExamplePrincipal();
    ExamplePermissionId();
    ExampleSubscriptionId();
    assert run.resources.Keys == {permissionId, subscriptionId};
  }

  /** The empty template gains exactly the permission and the subscription filter. */
  lemma EndToEndExample()
    ensures CompileSubscriptionFilterEvents(ExampleEnv(), ExampleAws(), ExampleFunctions(), map[])
         == Run(map[
              "FooLambdaPermissionsvcx" :=
                LambdaPermission(GetAtt("FooLambdaFunction", "Arn"), "lambda:InvokeFunction",
                                 "logs.us-east-1.amazonaws.com", "lg-arn-1"),
              "FooSubscriptionFiltersvcx" :=
                LogsSubscriptionFilter(GetAtt("FooLambdaFunction", "Arn"), "ERROR", "/svc/x", "FooLambdaPermissionsvcx")],
            None)
  {
    ExampleSelectsOneJob();
    ExampleJobCompiles();
    var job := Job(ExampleSetting(), "foo");
    assert [job][1..] == [];
  }
}

=== FILE: errors.dfy ===
/** The errors a compile run can end with, and the messages it reports. */
module Errors {
  import opened Settings
  import JsonString

  datatype CompileError =
    | ConfigurationError(field: Field)            // validateSettings
    | ResourceLimitExceeded(logGroupName: string) // checkResourceLimitExceeded
    | LogGroupNotFound                            // getLogGroupArn
    | PageLimitReached                            // page cap of the log-group search
    | ProviderError(message: string)              // an AWS call rejected
    | TemplateSyntaxError(cause: JsonString.JsonError)  // JSON.parse of the subscription filter template threw

  const ConfigurationPrefix: string := "You can't set "

  /** The `SyntaxError` text is the JavaScript engine's; one fixed text stands for it. */
  const TemplateSyntaxMessage: string := "Unexpected token in JSON"

  const LimitMessageHead: string := "\n  Subscription filters of "
  const LimitMessageTail: string :=
    " log group\n\n  - Resource limit exceeded..\n\n    You've hit a AWS resource limit:\n"
    + "    http://docs.aws.amazon.com/AmazonCloudWatch/latest/logs/cloudwatch_limits_cwl.html\n\n"
    + "    Subscription filters: 1/log group. This limit cannot be changed.\n            "

  /** The `message` of the error object each failure is raised with. */
  function Message(e: CompileError): (m: string)
    ensures e.ConfigurationError? ==>
      |m| > |ConfigurationPrefix| + |FieldName(e.field)| && m[..|ConfigurationPrefix|] == ConfigurationPrefix
    ensures e.ResourceLimitExceeded? ==>
      && |m| == |LimitMessageHead| + |e.logGroupName| + |LimitMessageTail|
      && m[..|LimitMessageHead|] == LimitMessageHead
      && m[|m| - |LimitMessageTail|..] == LimitMessageTail
    ensures e.LogGroupNotFound? ==> m == "LogGroup not found"
    ensures e.ProviderError? ==> m == e.message
  {
    match e
    case ConfigurationError(f) =>
      ConfigurationPrefix + FieldName(f) + " properties of a subscriptionFilter event. "
      + FieldName(f) + " propertiy is required."
    case ResourceLimitExceeded(g) => LimitMessageHead + g + LimitMessageTail
    case LogGroupNotFound => "LogGroup not found"
    case PageLimitReached => "LogGroup not found within the page limit"
    case ProviderError(m) => m
    case TemplateSyntaxError(_) => TemplateSyntaxMessage
  }

  /** A configuration error message names the offending field right after its fixed opening. */
  lemma ConfigurationMessageNamesField(f: Field)
    ensures |Message(ConfigurationError(f))| > |ConfigurationPrefix| + |FieldName(f)|
    ensures Message(ConfigurationError(f))[|ConfigurationPrefix|..|ConfigurationPrefix| + |FieldName(f)|] == FieldName(f)
  {
    var name := FieldName(f);
    var tail := " properties of a subscriptionFilter event. " + name + " propertiy is required.";
    assert Message(ConfigurationError(f)) == ConfigurationPrefix + name + tail;
    assert (ConfigurationPrefix + name + tail)[|ConfigurationPrefix|..|ConfigurationPrefix| + |name|] == name;
  }

  /** Different offending fields give different messages. */
  lemma ConfigurationMessagesDistinct(f1: Field, f2: Field)
    ensures Message(ConfigurationError(f1)) == Message(ConfigurationError(f2)) ==> f1 == f2
  {
    if f1 != f2 {
      var k := |ConfigurationPrefix|;
      ConfigurationMessageNamesField(f1);
      ConfigurationMessageNamesField(f2);
      assert Message(ConfigurationError(f1))[k] == FieldName(f1)[0];
      assert Message(ConfigurationError(f2))[k] == FieldName(f2)[0];
    }
  }

  /** The resource-limit message names the log group. */
  lemma ResourceLimitMessageNamesLogGroup(g: string)
    ensures Message(ResourceLimitExceeded(g))[|LimitMessageHead|..|LimitMessageHead| + |g|] == g
  {
  }
}

=== FILE: fragments.dfy ===
/**
  The two CloudFormation resources emitted for one (function, log group) pair
  (`compilePermission`, `compileSubscriptionFilter`), as the structured values
  `JSON.parse` makes of the plugin's templates. The filter pattern is the one
  value whose text is modelled: as written it is escaped by `escapeDoubleQuote`
  and may not parse back; the corrected fragment uses `EscapeJsonString`.
*/
module Fragments {
  import opened Wrappers
  import opened Naming
  import opened Settings
  import opened JsonString

  /** `{ "Fn::GetAtt": [logicalId, attribute] }` */
  datatype GetAtt = GetAtt(logicalId: string, attribute: string)

  /** A resource of the compiled template. */
  datatype Resource =
    | LambdaPermission(functionName: GetAtt, action: string, principal: string, sourceArn: string)
    | LogsSubscriptionFilter(destinationArn: GetAtt, filterPattern: string, logGroupName: string, dependsOn: string)
    | OtherResource(resourceType: string)     // anything else in the template
  {
    /** The resource's `Type`. */
    function Type(): string {
      match this
      case LambdaPermission(_, _, _, _) => "AWS::Lambda::Permission"
      case LogsSubscriptionFilter(_, _, _, _) => "AWS::Logs::SubscriptionFilter"
      case OtherResource(t) => t
    }
  }

  /** `{ [logicalId]: resource }`, the object merged into `Resources`. */
  datatype Fragment = Fragment(logicalId: string, resource: Resource)

  /** The function's `Arn` attribute, the target both resources point at. */
  function FunctionArnRef(env: Env, functionName: string): GetAtt {
    GetAtt(env.naming.lambdaLogicalId(functionName), "Arn")
  }

  /** The service principal that delivers a region's CloudWatch Logs events. */
  function LogsPrincipal(region: string): (p: string)
    ensures |p| == |region| + 19
    ensures p[..5] == "logs." && p[5..|p| - 14] == region && p[|p| - 14..] == ".amazonaws.com"
  {
    "logs." + region + ".amazonaws.com"
  }

  /** `compilePermission(setting, functionName, logGroupArn)`. */
  function CompilePermission(env: Env, setting: Setting, functionName: string, logGroupArn: string): (f: Fragment)
    ensures f.resource.LambdaPermission? && f.resource.Type() == "AWS::Lambda::Permission"
    ensures f.logicalId == PermissionLogicalId(env.naming, functionName, setting.logGroupName)
    ensures f.resource.sourceArn == logGroupArn
    ensures f.resource.principal == LogsPrincipal(env.region)
    ensures f.resource.action == "lambda:InvokeFunction"
    ensures f.resource.functionName == FunctionArnRef(env, functionName)
  {
    Fragment(
      PermissionLogicalId(env.naming, functionName, setting.logGroupName),
      LambdaPermission(FunctionArnRef(env, functionName), "lambda:InvokeFunction", LogsPrincipal(env.region), logGroupArn))
  }

  /**
    The value the `FilterPattern` property holds once the pattern, escaped by
    `escapeDoubleQuote`, has been written into the template and parsed back by
    `JSON.parse`; a failure is the `SyntaxError` the parse throws.
  */
  function ParsedFilterPattern(pattern: string): (r: Result<string, JsonError>)
    ensures Backslash !in pattern && (forall i :: 0 <= i < |pattern| ==> !IsControl(pattern[i])) ==>
      r == Success(pattern)
  {
    EscapeDoubleQuoteRoundTrip(pattern);
    DecodeJsonString(EscapeDoubleQuote(pattern))
  }

  /** The subscription-filter fragment whose `FilterPattern` holds `pattern`. */
  function SubscriptionFilterFragment(env: Env, setting: Setting, functionName: string, pattern: string): Fragment {
    Fragment(
      SubscriptionFilterLogicalId(env.naming, functionName, setting.logGroupName),
      LogsSubscriptionFilter(
        FunctionArnRef(env, functionName),
        pattern,
        setting.logGroupName,
        PermissionLogicalId(env.naming, functionName, setting.logGroupName)))
  }

  /**
    `compileSubscriptionFilter(setting, functionName)` with the pattern escaped
    by `EscapeJsonString`, which `JSON.parse` always reads back as the
    configured pattern (`JsonString.EscapeJsonString`).
  */
  function CompileSubscriptionFilter(env: Env, setting: Setting, functionName: string): (f: Fragment)
    ensures f.resource.LogsSubscriptionFilter? && f.resource.Type() == "AWS::Logs::SubscriptionFilter"
    ensures f.logicalId == SubscriptionFilterLogicalId(env.naming, functionName, setting.logGroupName)
    ensures f.resource.destinationArn == FunctionArnRef(env, functionName)
    ensures DecodeJsonString(EscapeJsonString(setting.filterPattern)) == Success(f.resource.filterPattern)
    ensures f.resource.filterPattern == setting.filterPattern
    ensures f.resource.logGroupName == setting.logGroupName
    ensures f.resource.dependsOn == PermissionLogicalId(env.naming, functionName, setting.logGroupName)
  {
    SubscriptionFilterFragment(env, setting, functionName, setting.filterPattern)
  }

  /**
    `compileSubscriptionFilter(setting, functionName)` as written: the pattern
    is escaped by `escapeDoubleQuote`, and the whole fragment fails when
    `JSON.parse` throws on the result.
  */
  function CompileSubscriptionFilterAsWritten(env: Env, setting: Setting, functionName: string)
    : (r: Result<Fragment, JsonError>)
    ensures r.Success? <==> ParsedFilterPattern(setting.filterPattern).Success?
    ensures r.Failure? ==> r.error == ParsedFilterPattern(setting.filterPattern).error
    ensures r.Success? ==>
      r.value == CompileSubscriptionFilter(env, setting, functionName)
                   .(resource := CompileSubscriptionFilter(env, setting, functionName).resource
                                   .(filterPattern := ParsedFilterPattern(setting.filterPattern).value))
    ensures ParsedFilterPattern(setting.filterPattern) == Success(setting.filterPattern) ==>
      r == Success(CompileSubscriptionFilter(env, setting, functionName))
  {
    var pattern :- ParsedFilterPattern(setting.filterPattern);
    Success(SubscriptionFilterFragment(env, setting, functionName, pattern))
  }

  /**
    A pattern holding the lone surrogate escape `\uD83D` passes
    `escapeDoubleQuote` unchanged; `JSON.parse` accepts it as the code unit
    U+D83D, which a Dafny `string` cannot hold, so the fragment as written
    fails in the model where the source builds it.
  */
  lemma LoneSurrogatePatternRejectedAsWritten(env: Env, setting: Setting, functionName: string)
    ensures setting.filterPattern == "\\uD83D" ==>
      && EscapeDoubleQuote(setting.filterPattern) == setting.filterPattern
      && CompileSubscriptionFilterAsWritten(env, setting, functionName) == Failure(SurrogateCodeUnit)
  {
    var p := setting.filterPattern;
    if p == "\\uD83D" {
      assert Quote !in p;
      EscapeDoubleQuoteWithoutQuote(p);
      LoneSurrogateRejected();
    }
  }

  /**
    The two fragments of one pair fit together: the subscription filter depends
    on the permission, under a different logical ID, and both point at the
    same function.
  */
  lemma FragmentsOfPairAgree(env: Env, setting: Setting, functionName: string, logGroupArn: string)
    ensures CompileSubscriptionFilter(env, setting, functionName).resource.dependsOn
         == CompilePermission(env, setting, functionName, logGroupArn).logicalId
    ensures CompileSubscriptionFilter(env, setting, functionName).logicalId
         != CompilePermission(env, setting, functionName, logGroupArn).logicalId
    ensures CompileSubscriptionFilter(env, setting, functionName).resource.destinationArn
         == CompilePermission(env, setting, functionName, logGroupArn).resource.functionName
  {
    PermissionAndSubscriptionIdsDiffer(env.naming, functionName, setting.logGroupName);
  }
}

=== FILE: json_string.dfy ===
/**
  Embedding a filter pattern in the JSON text of the subscription-filter
  template. `EscapeDoubleQuote` is the plugin's escape (`escapeDoubleQuote`);
  `DecodeJsonString` is what `JSON.parse` makes of the characters between the
  quotes of a JSON string literal; `EscapeJsonString` is an escape that
  `DecodeJsonString` always inverts.
*/
module JsonString {
  import opened Wrappers

  const Quote: char := '"'
  const Backslash: char := '\\'

  /** The number of occurrences of `c` in `s`. */
  function Count(s: string, c: char): nat {
    if s == [] then 0 else (if s[0] == c then 1 else 0) + Count(s[1..], c)
  }

  /** `c` is one of the characters JSON forbids unescaped in a string (U+0000 to U+001F). */
  predicate IsControl(c: char) {
    c < ' '
  }

  // ---------------------------------------------------------------------------
  // The plugin's escape: every `"` becomes `\"`, nothing else changes.

  function EscapeDoubleQuote(s: string): (r: string)
    ensures |r| == |s| + Count(s, Quote)
    ensures Count(r, Quote) == Count(s, Quote)
    ensures Count(r, Backslash) == Count(s, Backslash) + Count(s, Quote)
    ensures forall i :: 0 <= i < |r| && r[i] != Backslash ==> r[i] in s
  {
    if s == [] then []
    else if s[0] == Quote then [Backslash, Quote] + EscapeDoubleQuote(s[1..])
    else [s[0]] + EscapeDoubleQuote(s[1..])
  }

  /** On one character the escape turns `"` into `\"` and keeps anything else. */
  lemma EscapeDoubleQuoteOneChar(c: char)
    ensures EscapeDoubleQuote([c]) == if c == Quote then [Backslash, Quote] else [c]
  {
    assert [c][1..] == [];
  }

  /** Text without a double quote passes the escape unchanged. */
  lemma {:induction false} EscapeDoubleQuoteWithoutQuote(s: string)
    ensures Quote !in s ==> EscapeDoubleQuote(s) == s
  {
    if s != [] && Quote !in s {
      EscapeDoubleQuoteWithoutQuote(s[1..]);
      assert s == [s[0]] + s[1..];
    }
  }

  /** The escape works character by character: it distributes over concatenation. */
  lemma {:induction false} EscapeDoubleQuoteAppend(a: string, b: string)
    ensures EscapeDoubleQuote(a + b) == EscapeDoubleQuote(a) + EscapeDoubleQuote(b)
  {
    if a == [] {
      assert a + b == b;
    } else {
      assert (a + b)[0] == a[0];
      assert (a + b)[1..] == a[1..] + b;
      EscapeDoubleQuoteAppend(a[1..], b);
    }
  }

  /** Replaces every `\"` by `"`, reading left to right. */
  function UnescapeQuotes(s: string): string {
    if |s| >= 2 && s[0] == Backslash && s[1] == Quote then [Quote] + UnescapeQuotes(s[2..])
    else if s == [] then []
    else [s[0]] + UnescapeQuotes(s[1..])
  }

  /** Undoing the quote escape recovers any input that has no backslash. */
  lemma {:induction false} UnescapeQuotesInvertsEscape(s: string)
    requires Backslash !in s
    ensures UnescapeQuotes(EscapeDoubleQuote(s)) == s
  {
    if s != [] {
      UnescapeQuotesInvertsEscape(s[1..]);
      if s[0] == Quote {
        assert EscapeDoubleQuote(s) == [Backslash, Quote] + EscapeDoubleQuote(s[1..]);
      } else {
        assert EscapeDoubleQuote(s) == [s[0]] + EscapeDoubleQuote(s[1..]);
      }
    }
  }

  // ---------------------------------------------------------------------------
  // JSON string-literal decoding (section 7 of RFC 8259).

  datatype JsonError =
    | UnexpectedQuote      // an unescaped `"` ends the literal early
    | ControlCharacter     // an unescaped character below U+0020
    | BadEscape            // a backslash followed by anything else than a JSON escape
    | Unterminated         // a trailing backslash escapes the closing quote
    | SurrogateCodeUnit    // a `\uD800` to `\uDFFF` escape that is not half of a pair

  /** The value of a hexadecimal digit. */
  function HexValue(c: char): (r: Option<nat>)
    ensures r.Some? <==> '0' <= c <= '9' || 'a' <= c <= 'f' || 'A' <= c <= 'F'
    ensures r.Some? ==> r.value < 16
  {
    if '0' <= c <= '9' then Some(c as nat - '0' as nat)
    else if 'a' <= c <= 'f' then Some(c as nat - 'a' as nat + 10)
    else if 'A' <= c <= 'F' then Some(c as nat - 'A' as nat + 10)
    else None
  }

  /** The code unit written as four hex digits. */
  function HexQuad(h: string): (r: Option<nat>)
    requires |h| == 4
    ensures r.Some? ==> r.value < 0x1_0000
  {
    match (HexValue(h[0]), HexValue(h[1]), HexValue(h[2]), HexValue(h[3]))
    case (Some(a), Some(b), Some(c), Some(d)) => Some(((a * 16 + b) * 16 + c) * 16 + d)
    case _ => None
  }

  function Prepend(c: char, r: Result<string, JsonError>): Result<string, JsonError> {
    match r
    case Success(t) => Success([c] + t)
    case Failure(e) => Failure(e)
  }

  /** The character a UTF-16 surrogate pair `hi`, `lo` encodes. */
  function SurrogatePair(hi: nat, lo: nat): (c: char)
    requires 0xD800 <= hi < 0xDC00 && 0xDC00 <= lo < 0xE000
    ensures 0x1_0000 <= c as int < 0x11_0000
  {
    (0x1_0000 + (hi - 0xD800) * 0x400 + (lo - 0xDC00)) as char
  }

  /** The low surrogate `s` starts with, written `\uXXXX`, if any. */
  function LowSurrogateEscape(s: string): (r: Option<nat>)
    ensures r.Some? ==> |s| >= 6 && 0xDC00 <= r.value < 0xE000
  {
    if |s| >= 6 && s[0] == Backslash && s[1] == 'u' then
      match HexQuad(s[2..6])
      case Some(lo) => if 0xDC00 <= lo < 0xE000 then Some(lo) else None
      case None => None
    else None
  }

  /** The value `JSON.parse` gives the literal `"` + s + `"`. */
  function DecodeJsonString(s: string): (r: Result<string, JsonError>)
    ensures r.Success? ==> |r.value| <= |s|
    decreases |s|
  {
    if s == [] then Success([])
    else if s[0] == Quote then Failure(UnexpectedQuote)
    else if IsControl(s[0]) then Failure(ControlCharacter)
    else if s[0] != Backslash then Prepend(s[0], DecodeJsonString(s[1..]))
    else if |s| == 1 then Failure(Unterminated)
    else if s[1] == Quote then Prepend(Quote, DecodeJsonString(s[2..]))
    else if s[1] == Backslash then Prepend(Backslash, DecodeJsonString(s[2..]))
    else if s[1] == '/' then Prepend('/', DecodeJsonString(s[2..]))
    else if s[1] == 'b' then Prepend(8 as char, DecodeJsonString(s[2..]))
    else if s[1] == 'f' then Prepend(12 as char, DecodeJsonString(s[2..]))
    else if s[1] == 'n' then Prepend('\n', DecodeJsonString(s[2..]))
    else if s[1] == 'r' then Prepend('\r', DecodeJsonString(s[2..]))
    else if s[1] == 't' then Prepend('\t', DecodeJsonString(s[2..]))
    else if s[1] == 'u' && |s| >= 6 then
      match HexQuad(s[2..6])
      case None => Failure(BadEscape)
      case Some(n) =>
        if 0xD800 <= n < 0xDC00 && LowSurrogateEscape(s[6..]).Some? then
          Prepend(SurrogatePair(n, LowSurrogateEscape(s[6..]).value), DecodeJsonString(s[12..]))
        else if 0xD800 <= n < 0xE000 then Failure(SurrogateCodeUnit)
        else Prepend(n as char, DecodeJsonString(s[6..]))
    else Failure(BadEscape)
  }

  /** Text without a quote, a backslash or a control character is its own JSON string value. */
  lemma {:induction false} PlainTextDecodesToItself(s: string)
    requires Quote !in s && Backslash !in s
    requires forall i :: 0 <= i < |s| ==> !IsControl(s[i])
    ensures DecodeJsonString(s) == Success(s)
  {
    if s != [] {
      assert s[0] in s;
      assert forall i :: 0 <= i < |s[1..]| ==> s[1..][i] == s[i + 1];
      PlainTextDecodesToItself(s[1..]);
      assert s == [s[0]] + s[1..];
    }
  }

  /** A surrogate pair decodes to the one character it encodes: `\uD83D\uDE00` is U+1F600. */
  lemma SurrogatePairDecodes()
    ensures DecodeJsonString("\\uD83D\\uDE00") == Success([0x1_F600 as char])
  {
    var s := "\\uD83D\\uDE00";
    assert s[2..6] == "D83D" && s[6..] == "\\uDE00" && s[6..][2..6] == "DE00" && s[12..] == [];
    assert HexQuad("D83D") == Some(0xD83D);
    assert HexQuad("DE00") == Some(0xDE00);
    assert LowSurrogateEscape(s[6..]) == Some(0xDE00);
    assert SurrogatePair(0xD83D, 0xDE00) == 0x1_F600 as char;
    var empty: string := [];
    assert DecodeJsonString(s[12..]) == Success(empty);
    assert DecodeJsonString(s) == Prepend(0x1_F600 as char, Success(empty));
    assert [0x1_F600 as char] + empty == [0x1_F600 as char];
  }

  /** A high surrogate without its low half is rejected. */
  lemma LoneSurrogateRejected()
    ensures DecodeJsonString("\\uD83D") == Failure(SurrogateCodeUnit)
  {
    var s := "\\uD83D";
    assert s[2..6] == "D83D" && s[6..] == [];
    assert HexQuad("D83D") == Some(0xD83D);
  }

  /**
    The plugin's escape survives `JSON.parse` for every pattern without a
    backslash or a control character.
  */
  lemma {:induction false} EscapeDoubleQuoteRoundTrip(s: string)
    ensures Backslash !in s && (forall i :: 0 <= i < |s| ==> !IsControl(s[i])) ==>
      DecodeJsonString(EscapeDoubleQuote(s)) == Success(s)
  {
    if s != [] && Backslash !in s && (forall i :: 0 <= i < |s| ==> !IsControl(s[i])) {
      assert forall i :: 0 <= i < |s[1..]| ==> s[1..][i] == s[i + 1];
      EscapeDoubleQuoteRoundTrip(s[1..]);
      assert s[0] in s;
      assert EscapeDoubleQuote(s) == EscapeChar(s[0]) + EscapeDoubleQuote(s[1..]);
      DecodeEscapedChar(s[0], EscapeDoubleQuote(s[1..]));
      assert s == [s[0]] + s[1..];
    }
  }

  /**
    A pattern holding the two characters `\n` does not survive: `JSON.parse`
    reads them as one newline.
  */
  lemma EscapeDoubleQuoteBreaksOnBackslash()
    ensures DecodeJsonString(EscapeDoubleQuote([Backslash, 'n'])) == Success(['\n'])
  {
    var e := [Backslash, 'n'];
    assert EscapeDoubleQuote(e[1..]) == ['n'];
    assert EscapeDoubleQuote(e) == e;
    assert e[2..] == [];
    assert e[0] == Backslash && e[1] == 'n';
    assert DecodeJsonString(e) == Prepend('\n', DecodeJsonString(e[2..]));
    var empty: string := [];
    assert DecodeJsonString(empty) == Success(empty);
    assert [('\n' as char)] + empty == ['\n'];
  }

  /** A backslash before a letter that is no JSON escape makes `JSON.parse` fail. */
  lemma EscapeDoubleQuoteFailsOnRegexEscape()
    ensures DecodeJsonString(EscapeDoubleQuote([Backslash, 'd'])) == Failure(BadEscape)
  {
    var e := [Backslash, 'd'];
    assert EscapeDoubleQuote(e[1..]) == ['d'];
    assert EscapeDoubleQuote(e) == e;
  }

  /** A pattern ending in a backslash makes `JSON.parse` fail. */
  lemma EscapeDoubleQuoteFailsOnTrailingBackslash()
    ensures DecodeJsonString(EscapeDoubleQuote([Backslash])) == Failure(Unterminated)
  {
    assert EscapeDoubleQuote([Backslash]) == [Backslash];
  }

  // ---------------------------------------------------------------------------
  // An escape JSON decoding always inverts.

  const HexDigits: string := "0123456789abcdef"

  /** One character escaped: `"` and `\` behind a backslash, control characters as `\u00XX`. */
  function EscapeChar(c: char): (e: string)
    ensures |e| > 0
    ensures forall i :: 0 <= i < |e| ==> !IsControl(e[i])
  {
    if c == Quote then [Backslash, Quote]
    else if c == Backslash then [Backslash, Backslash]
    else if IsControl(c) then [Backslash, 'u', '0', '0', HexDigits[c as int / 16], HexDigits[c as int % 16]]
    else [c]
  }

  lemma HexDigitValue(d: nat)
    requires d < 16
    ensures HexValue(HexDigits[d]) == Some(d)
  {
  }

  /** Decoding an escaped character followed by any text yields that character first. */
  lemma DecodeEscapedChar(c: char, t: string)
    ensures DecodeJsonString(EscapeChar(c) + t) == Prepend(c, DecodeJsonString(t))
  {
    var s := EscapeChar(c) + t;
    if c == Quote || c == Backslash {
      assert s[2..] == t;
    } else if IsControl(c) {
      var hi, lo := c as int / 16, c as int % 16;
      HexDigitValue(hi);
      HexDigitValue(lo);
      assert s[2..6] == ['0', '0', HexDigits[hi], HexDigits[lo]];
      assert HexQuad(s[2..6]) == Some(c as nat);
      assert s[6..] == t;
    } else {
      assert s[1..] == t;
    }
  }

  /** An escaped character in front of a control-free encoding of `rest` encodes `[c] + rest`. */
  lemma EscapedCharInFront(c: char, tail: string, rest: string)
    requires DecodeJsonString(tail) == Success(rest)
    requires forall i :: 0 <= i < |tail| ==> !IsControl(tail[i])
    ensures DecodeJsonString(EscapeChar(c) + tail) == Success([c] + rest)
    ensures forall i :: 0 <= i < |EscapeChar(c) + tail| ==> !IsControl((EscapeChar(c) + tail)[i])
  {
    DecodeEscapedChar(c, tail);
    var head := EscapeChar(c);
    forall i | 0 <= i < |head + tail| ensures !IsControl((head + tail)[i]) {
      if i >= |head| {
        assert (head + tail)[i] == tail[i - |head|];
      }
    }
  }

  /** Escapes `"`, `\` and control characters. */
  function EscapeJsonString(s: string): (r: string)
    ensures DecodeJsonString(r) == Success(s)
    ensures forall i :: 0 <= i < |r| ==> !IsControl(r[i])
  {
    if s == [] then []
    else
      var tail := EscapeJsonString(s[1..]);
      EscapedCharInFront(s[0], tail, s[1..]);
      assert s == [s[0]] + s[1..];
      EscapeChar(s[0]) + tail
  }
}

=== FILE: limit_check.dfy ===
/**
  The pre-flight check against the CloudWatch Logs limit of one subscription
  filter per log group (`checkResourceLimitExceeded`): an existing filter is
  accepted only when it already points at the function this deployment would
  install.
*/
module LimitCheck {
  import opened Wrappers
  import opened Naming
  import opened Errors

  /** One entry of a `describeSubscriptionFilters` answer. */
  datatype SubscriptionFilterInfo = SubscriptionFilterInfo(filterName: string, destinationArn: string)

  /**
    `getSubscriptionFilterDestinationArn`: the destination of the first filter
    attached to the log group, if there is one.
  */
  function ExistingDestination(filters: seq<SubscriptionFilterInfo>): (d: Option<string>)
    ensures d.None? <==> filters == []
    ensures d.Some? ==> d.value == filters[0].destinationArn
  {
    if filters == [] then None else Some(filters[0].destinationArn)
  }

  /**
    `checkResourceLimitExceeded(logGroupName, functionName)`. `filters` is the
    answer of `describeSubscriptionFilters` for the log group and `accountId`
    that of `getAccountId`; either may be a rejection, whose message is
    propagated. An empty destination is falsy and counts as no filter.
  */
  function CheckResourceLimit(
    env: Env, logGroupName: string, functionName: string,
    filters: Result<seq<SubscriptionFilterInfo>, string>, accountId: Result<string, string>
  ): (r: Result<(), CompileError>)
    ensures filters.Failure? ==> r == Failure(ProviderError(filters.error))
    ensures filters.Success? && accountId.Failure? ==> r == Failure(ProviderError(accountId.error))
    ensures r.Failure? ==> r.error.ProviderError? || r.error == ResourceLimitExceeded(logGroupName)
  {
    var existing :- filters.MapError(m => ProviderError(m));
    var account :- accountId.MapError(m => ProviderError(m));
    match ExistingDestination(existing)
    case None => Success(())
    case Some(destination) =>
      if destination == "" then Success(())
      else if destination != GuessDestinationArn(env, account, functionName) then
        Failure(ResourceLimitExceeded(logGroupName))
      else Success(())
  }

  /** With no subscription filter on the log group there is no conflict. */
  lemma NoExistingFilterPasses(env: Env, logGroupName: string, functionName: string, accountId: string)
    ensures CheckResourceLimit(env, logGroupName, functionName, Success([]), Success(accountId)).Success?
  {
  }

  /**
    Re-deploying is accepted: a filter whose destination is the function this
    deployment installs passes, whatever other filters follow it.
  */
  lemma RedeployPasses(
    env: Env, logGroupName: string, functionName: string, accountId: string,
    filters: seq<SubscriptionFilterInfo>)
    requires filters != [] && filters[0].destinationArn == GuessDestinationArn(env, accountId, functionName)
    ensures CheckResourceLimit(env, logGroupName, functionName, Success(filters), Success(accountId)).Success?
  {
  }

  /** Any other non-empty destination is a resource-limit error naming the log group. */
  lemma ForeignDestinationFails(
    env: Env, logGroupName: string, functionName: string, accountId: string,
    filters: seq<SubscriptionFilterInfo>)
    requires filters != [] && filters[0].destinationArn != ""
    requires filters[0].destinationArn != GuessDestinationArn(env, accountId, functionName)
    ensures CheckResourceLimit(env, logGroupName, functionName, Success(filters), Success(accountId))
         == Failure(ResourceLimitExceeded(logGroupName))
  {
  }

  /**
    A log group already wired to another function of the same service and
    stage is refused.
  */
  lemma OtherFunctionConflicts(
    env: Env, logGroupName: string, functionName: string, other: string, accountId: string,
    filters: seq<SubscriptionFilterInfo>)
    requires other != functionName
    requires filters != [] && filters[0].destinationArn == GuessDestinationArn(env, accountId, other)
    ensures CheckResourceLimit(env, logGroupName, functionName, Success(filters), Success(accountId))
         == Failure(ResourceLimitExceeded(logGroupName))
  {
    GuessDestinationArnInjective(env, accountId, functionName, other);
  }

  /**
    A log group already wired to the same function deployed in another stage is
    refused: the stage is part of the deployed function name.
  */
  lemma OtherStageConflicts(
    env: Env, otherStage: string, logGroupName: string, functionName: string, accountId: string,
    filters: seq<SubscriptionFilterInfo>)
    requires otherStage != env.stage
    requires filters != []
    requires filters[0].destinationArn == GuessDestinationArn(env.(stage := otherStage), accountId, functionName)
    ensures CheckResourceLimit(env, logGroupName, functionName, Success(filters), Success(accountId))
         == Failure(ResourceLimitExceeded(logGroupName))
  {
    GuessDestinationArnStageInjective(env, otherStage, accountId, functionName);
  }
}

=== FILE: log_group_search.dfy ===
/**
  Resolving a log group's ARN (`getLogGroupArn`). `describeLogGroups` answers
  a name-prefix query one page at a time; the search looks for the group whose
  name equals the requested name exactly and follows continuation tokens.

  `FindLogGroupArn` is the search the plugin intends: it stops at the first
  exact match, fails on an empty page or when no token is left, and follows at
  most a fixed number of pages. `SearchAsWritten` is the recursion as the
  plugin writes it, where a match on a later page never reaches the caller and
  a missing token starts again from the first page.
*/
module LogGroupSearch {
  import opened Wrappers
  import opened Errors

  datatype LogGroup = LogGroup(name: string, arn: string)

  /** One `describeLogGroups` answer. */
  datatype Page = Page(logGroups: seq<LogGroup>, nextToken: Option<string>)

  /**
    `describeLogGroups` for one fixed name prefix: from the token to start at
    (`None` is the first page) to the page, or to the provider's error message.
  */
  type Fetch = Option<string> -> Result<Page, string>

  /** The most pages the search reads before giving up. */
  const MaxPages: nat := 100

  /** `_.find(groups, { logGroupName: name })`: the index of the first group named exactly `name`. */
  function FindIndex(groups: seq<LogGroup>, name: string): (r: Option<nat>)
    ensures r.Some? ==> r.value < |groups| && groups[r.value].name == name
    ensures r.Some? ==> forall j :: 0 <= j < r.value ==> groups[j].name != name
    ensures r.None? ==> forall j :: 0 <= j < |groups| ==> groups[j].name != name
  {
    if groups == [] then None
    else if groups[0].name == name then Some(0)
    else match FindIndex(groups[1..], name)
      case None => None
      case Some(i) => Some(i + 1)
  }

  /** The first match in a concatenation is the first match in its left part, if any. */
  lemma {:induction false} FindIndexAppend(a: seq<LogGroup>, b: seq<LogGroup>, name: string)
    ensures FindIndex(a + b, name)
         == match FindIndex(a, name)
            case Some(i) => Some(i)
            case None => match FindIndex(b, name) { case Some(j) => Some(|a| + j) case None => None }
  {
    if a == [] {
      assert a + b == b;
    } else {
      assert (a + b)[0] == a[0];
      assert (a + b)[1..] == a[1..] + b;
      FindIndexAppend(a[1..], b, name);
    }
  }

  // ---------------------------------------------------------------------------
  // The intended search.

  /**
    The ARN of the log group named exactly `name`, searching from page `token`
    and reading at most `fuel` pages.
  */
  function FindLogGroupArn(fetch: Fetch, name: string, token: Option<string>, fuel: nat): (r: Result<string, CompileError>)
    ensures r.Failure? ==> r.error in {LogGroupNotFound, PageLimitReached} || r.error.ProviderError?
    ensures fuel == 0 ==> r == Failure(PageLimitReached)
    decreases fuel
  {
    if fuel == 0 then Failure(PageLimitReached)
    else match fetch(token)
      case Failure(m) => Failure(ProviderError(m))
      case Success(page) =>
        if page.logGroups == [] then Failure(LogGroupNotFound)
        else match FindIndex(page.logGroups, name)
          case Some(i) => Success(page.logGroups[i].arn)
          case None =>
            match page.nextToken
            case None => Failure(LogGroupNotFound)
            case Some(t) => FindLogGroupArn(fetch, name, Some(t), fuel - 1)
  }

  // ---------------------------------------------------------------------------
  // A reference: read the whole chain of pages, then take the first exact match.

  /** Why a chain of pages ends. */
  datatype ChainEnd =
    | NoMoreTokens               // the last page has no continuation token
    | EmptyPage                  // the provider answered an empty page
    | ProviderFailed(message: string)
    | OutOfPages                 // MaxPages pages were read

  datatype PageChain = PageChain(pages: seq<Page>, end: ChainEnd)

  /** The non-empty pages reached from `token` by following continuation tokens. */
  function Chain(fetch: Fetch, token: Option<string>, fuel: nat): (c: PageChain)
    ensures |c.pages| <= fuel
    ensures forall k :: 0 <= k < |c.pages| ==> c.pages[k].logGroups != []
    decreases fuel
  {
    if fuel == 0 then PageChain([], OutOfPages)
    else match fetch(token)
      case Failure(m) => PageChain([], ProviderFailed(m))
      case Success(page) =>
        if page.logGroups == [] then PageChain([], EmptyPage)
        else match page.nextToken
          case None => PageChain([page], NoMoreTokens)
          case Some(t) =>
            var rest := Chain(fetch, Some(t), fuel - 1);
            PageChain([page] + rest.pages, rest.end)
  }

  /** All log groups of a sequence of pages, in order. */
  function Groups(pages: seq<Page>): seq<LogGroup> {
    if pages == [] then [] else pages[0].logGroups + Groups(pages[1..])
  }

  function EndError(end: ChainEnd): CompileError {
    match end
    case NoMoreTokens => LogGroupNotFound
    case EmptyPage => LogGroupNotFound
    case ProviderFailed(m) => ProviderError(m)
    case OutOfPages => PageLimitReached
  }

  /** The first exact match among all groups of the chain, or the reason the chain ended. */
  function SearchChain(c: PageChain, name: string): Result<string, CompileError> {
    var groups := Groups(c.pages);
    match FindIndex(groups, name)
    case Some(i) => Success(groups[i].arn)
    case None => Failure(EndError(c.end))
  }

  /** Searching a chain that starts with `page`: a match on `page` wins, otherwise the rest decides. */
  lemma SearchChainCons(page: Page, rest: seq<Page>, end: ChainEnd, name: string)
    ensures FindIndex(page.logGroups, name).Some? ==>
      SearchChain(PageChain([page] + rest, end), name) == Success(page.logGroups[FindIndex(page.logGroups, name).value].arn)
    ensures FindIndex(page.logGroups, name).None? ==>
      SearchChain(PageChain([page] + rest, end), name) == SearchChain(PageChain(rest, end), name)
  {
    var pages := [page] + rest;
    assert pages[1..] == rest;
    assert Groups(pages) == page.logGroups + Groups(rest);
    FindIndexAppend(page.logGroups, Groups(rest), name);
    if FindIndex(page.logGroups, name).Some? {
      var i := FindIndex(page.logGroups, name).value;
      assert Groups(pages)[i] == page.logGroups[i];
    } else {
      match FindIndex(Groups(rest), name)
      case None =>
      case Some(j) =>
        assert Groups(pages)[|page.logGroups| + j] == Groups(rest)[j];
    }
  }

  /**
    Stopping at the first page with a match gives the same answer as reading
    every page the tokens lead to and taking the first exact match.
  */
  lemma {:induction false} FindLogGroupArnMeetsChain(fetch: Fetch, name: string, token: Option<string>, fuel: nat)
    ensures FindLogGroupArn(fetch, name, token, fuel) == SearchChain(Chain(fetch, token, fuel), name)
    decreases fuel
  {
    if fuel > 0 && fetch(token).Success? {
      var page := fetch(token).value;
      if page.logGroups != [] {
        match page.nextToken
        case None =>
          SearchChainCons(page, [], NoMoreTokens, name);
          assert SearchChain(PageChain([], NoMoreTokens), name) == Failure(LogGroupNotFound);
          assert [page] + [] == [page];
        case Some(t) =>
          var rest := Chain(fetch, Some(t), fuel - 1);
          SearchChainCons(page, rest.pages, rest.end, name);
          if FindIndex(page.logGroups, name).None? {
            FindLogGroupArnMeetsChain(fetch, name, Some(t), fuel - 1);
          }
      }
    }
  }

  /**
    Only an exact name match is ever returned: a success is the ARN of a group,
    on one of the pages reached, whose name equals `name`.
  */
  lemma SearchReturnsExactMatch(fetch: Fetch, name: string, token: Option<string>, fuel: nat)
    requires FindLogGroupArn(fetch, name, token, fuel).Success?
    ensures exists g :: g in Groups(Chain(fetch, token, fuel).pages)
                     && g.name == name && g.arn == FindLogGroupArn(fetch, name, token, fuel).value
  {
    FindLogGroupArnMeetsChain(fetch, name, token, fuel);
    var groups := Groups(Chain(fetch, token, fuel).pages);
    var i := FindIndex(groups, name).value;
    assert groups[i] in groups;
  }

  /**
    The search fails with "not found" exactly when no page it reaches holds the
    name and the pages ran out (an empty page or no continuation token).
  */
  lemma SearchNotFoundWhenNoPageHasName(fetch: Fetch, name: string, token: Option<string>, fuel: nat)
    ensures FindLogGroupArn(fetch, name, token, fuel) == Failure(LogGroupNotFound)
        <==> (forall g :: g in Groups(Chain(fetch, token, fuel).pages) ==> g.name != name)
             && Chain(fetch, token, fuel).end in {NoMoreTokens, EmptyPage}
  {
    FindLogGroupArnMeetsChain(fetch, name, token, fuel);
    var groups := Groups(Chain(fetch, token, fuel).pages);
    if FindIndex(groups, name).Some? {
      var i := FindIndex(groups, name).value;
      assert groups[i] in groups;
    } else {
      forall g | g in groups ensures g.name != name {
        var k :| 0 <= k < |groups| && groups[k] == g;
      }
    }
  }

  /** An empty page ends the search with "LogGroup not found". */
  lemma EmptyPageIsNotFound(fetch: Fetch, name: string, token: Option<string>, fuel: nat, next: Option<string>)
    requires fuel > 0 && fetch(token) == Success(Page([], next))
    ensures FindLogGroupArn(fetch, name, token, fuel) == Failure(LogGroupNotFound)
  {
  }

  /**
    A match on the current page is returned without reading further pages: the
    answer does not depend on what any other token would return.
  */
  lemma MatchOnPageStopsSearch(f1: Fetch, f2: Fetch, name: string, token: Option<string>, fuel: nat, i: nat)
    requires fuel > 0 && f1(token) == f2(token) && f1(token).Success?
    requires i < |f1(token).value.logGroups| && f1(token).value.logGroups[i].name == name
    ensures FindLogGroupArn(f1, name, token, fuel) == FindLogGroupArn(f2, name, token, fuel)
    ensures FindLogGroupArn(f1, name, token, fuel).Success?
  {
  }

  // ---------------------------------------------------------------------------
  // The recursion as written.

  /** How the promise returned by `getLogGroupArn` settles. */
  datatype Settlement =
    | Resolved(arn: string)
    | Rejected(error: CompileError)
    | Pending                  // never settles within the pages read

  /**
    `getLogGroupArn` as written. A recursive call's rejection reaches the outer
    promise through its `.catch`, but its resolution is only returned into the
    `.then` chain and never passed to the outer `resolve`. An absent
    `nextToken` becomes the default `null`, which asks for the first page again.
    `fuel` bounds the pages read; running out is `Pending`.
  */
  function SearchAsWritten(fetch: Fetch, name: string, token: Option<string>, fuel: nat): (r: Settlement)
    ensures r.Resolved? ==> fuel > 0 && fetch(token).Success?
    ensures r.Rejected? ==> r.error == LogGroupNotFound || r.error.ProviderError?
    decreases fuel
  {
    if fuel == 0 then Pending
    else match fetch(token)
      case Failure(m) => Rejected(ProviderError(m))
      case Success(page) =>
        if page.logGroups == [] then Rejected(LogGroupNotFound)
        else match FindIndex(page.logGroups, name)
          case Some(i) => Resolved(page.logGroups[i].arn)
          case None =>
            match SearchAsWritten(fetch, name, page.nextToken, fuel - 1)
            case Resolved(_) => Pending
            case other => other
  }

  /** Whenever the written search does resolve, the intended search gives the same ARN. */
  lemma AsWrittenResolutionAgrees(fetch: Fetch, name: string, token: Option<string>, fuel: nat, fuel': nat)
    requires SearchAsWritten(fetch, name, token, fuel).Resolved?
    requires fuel' > 0
    ensures FindLogGroupArn(fetch, name, token, fuel') == Success(SearchAsWritten(fetch, name, token, fuel).arn)
  {
  }

  const GroupAB := LogGroup("/ab", "arn:aws:logs:r:1:log-group:/ab:*")
  const GroupABC := LogGroup("/abc", "arn:aws:logs:r:1:log-group:/abc:*")
  const GroupABCD := LogGroup("/abcd", "arn:aws:logs:r:1:log-group:/abcd:*")

  /**
    Two pages for the prefix "/abc", as the search for `/abc` queries them:
    `/abcd`, then `/abc` behind token "t".
  */
  function TwoPages(): Fetch {
    t => if t == None then Success(Page([GroupABCD], Some("t")))
         else if t == Some("t") then Success(Page([GroupABC], None))
         else Failure("InvalidParameterException")
  }

  /** One page for the prefix "/a" holding only `/ab`, with no continuation token. */
  function OnePage(): Fetch {
    t => Success(Page([GroupAB], None))
  }

  /**
    A group found on the second page: the written search never settles,
    however many pages it may read; the intended search returns its ARN.
  */
  lemma LaterPageMatchNeverResolves(fuel: nat)
    ensures SearchAsWritten(TwoPages(), "/abc", None, fuel) == Pending
    ensures fuel >= 2 ==> FindLogGroupArn(TwoPages(), "/abc", None, fuel) == Success(GroupABC.arn)
  {
    if fuel >= 2 {
      assert FindIndex([GroupABCD], "/abc") == None;
      assert FindIndex([GroupABC], "/abc") == Some(0);
    }
  }

  /**
    With no token on a page without a match, the written search reads the
    first page again forever; the intended search reports "not found". The
    group `/ab` only shares the prefix `/a` and is not returned.
  */
  lemma {:induction false} MissingTokenRestartsSearch(fuel: nat)
    ensures SearchAsWritten(OnePage(), "/a", None, fuel) == Pending
    ensures fuel > 0 ==> FindLogGroupArn(OnePage(), "/a", None, fuel) == Failure(LogGroupNotFound)
    decreases fuel
  {
    if fuel > 0 {
      assert FindIndex([GroupAB], "/a") == None;
      MissingTokenRestartsSearch(fuel - 1);
    }
  }
}

=== FILE: naming.dfy ===
/**
  Names the plugin derives from a function name and a log group name: the
  CloudFormation logical IDs of the two resources it emits, the deployed Lambda
  function name and the destination ARN a subscription filter installed by this
  deployment would point at.

  The Serverless naming helpers are external; they are fields of `Naming` and
  nothing is assumed about them.
*/
module Naming {

  /** The Serverless framework's naming service, left uninterpreted. */
  datatype Naming = Naming(
    lambdaLogicalId: string -> string,           // naming.getLambdaLogicalId
    normalizedFunctionName: string -> string,    // naming.getNormalizedFunctionName
    alphaNumericOnly: string -> string           // naming.normalizeNameToAlphaNumericOnly
  )

  /** The deployment context the provider supplies. */
  datatype Env = Env(naming: Naming, serviceName: string, stage: string, region: string)

  const PermissionInfix: string := "LambdaPermission"
  const SubscriptionFilterInfix: string := "SubscriptionFilter"

  /** Logical ID of the `AWS::Lambda::Permission` for (function, log group). */
  function PermissionLogicalId(n: Naming, functionName: string, logGroupName: string): (id: string)
    ensures |id| == |n.normalizedFunctionName(functionName)| + |PermissionInfix| + |n.alphaNumericOnly(logGroupName)|
    ensures id[..|n.normalizedFunctionName(functionName)|] == n.normalizedFunctionName(functionName)
    ensures id[|n.normalizedFunctionName(functionName)|..|n.normalizedFunctionName(functionName)| + |PermissionInfix|]
         == PermissionInfix
    ensures id[|id| - |n.alphaNumericOnly(logGroupName)|..] == n.alphaNumericOnly(logGroupName)
  {
    n.normalizedFunctionName(functionName) + PermissionInfix + n.alphaNumericOnly(logGroupName)
  }

  /** Logical ID of the `AWS::Logs::SubscriptionFilter` for (function, log group). */
  function SubscriptionFilterLogicalId(n: Naming, functionName: string, logGroupName: string): (id: string)
    ensures |id| == |n.normalizedFunctionName(functionName)| + |SubscriptionFilterInfix| + |n.alphaNumericOnly(logGroupName)|
    ensures id[..|n.normalizedFunctionName(functionName)|] == n.normalizedFunctionName(functionName)
    ensures id[|n.normalizedFunctionName(functionName)|..|n.normalizedFunctionName(functionName)| + |SubscriptionFilterInfix|]
         == SubscriptionFilterInfix
    ensures id[|id| - |n.alphaNumericOnly(logGroupName)|..] == n.alphaNumericOnly(logGroupName)
  {
    n.normalizedFunctionName(functionName) + SubscriptionFilterInfix + n.alphaNumericOnly(logGroupName)
  }

  /**
    The two logical IDs of one (function, log group) pair never coincide: they
    share the normalized function name and then differ at the next character
    ('L' against 'S').
  */
  lemma PermissionAndSubscriptionIdsDiffer(n: Naming, functionName: string, logGroupName: string)
    ensures PermissionLogicalId(n, functionName, logGroupName)
         != SubscriptionFilterLogicalId(n, functionName, logGroupName)
  {
    var k := |n.normalizedFunctionName(functionName)|;
    var p := PermissionLogicalId(n, functionName, logGroupName);
    var s := SubscriptionFilterLogicalId(n, functionName, logGroupName);
    assert p[k] == 'L';
    assert s[k] == 'S';
  }

  /** The deployed Lambda function name `<service>-<stage>-<function>`. */
  function LambdaFunctionName(env: Env, functionName: string): (name: string)
    ensures |name| == |env.serviceName| + |env.stage| + |functionName| + 2
    ensures name[..|env.serviceName|] == env.serviceName
    ensures name[|env.serviceName|] == '-'
    ensures name[|env.serviceName| + 1..|env.serviceName| + 1 + |env.stage|] == env.stage
    ensures name[|env.serviceName| + 1 + |env.stage|] == '-'
    ensures name[|name| - |functionName|..] == functionName
  {
    env.serviceName + "-" + env.stage + "-" + functionName
  }

  const LambdaArnPrefix: string := "arn:aws:lambda:"

  const FunctionInfix: string := ":function:"

  /** The ARN `arn:aws:lambda:<region>:<account>:function:<lambdaName>`. */
  function LambdaFunctionArn(region: string, accountId: string, lambdaName: string): (arn: string)
    ensures |arn| == |LambdaArnPrefix| + |region| + 1 + |accountId| + |FunctionInfix| + |lambdaName|
    ensures arn[..|LambdaArnPrefix|] == LambdaArnPrefix
    ensures arn[|LambdaArnPrefix|..|LambdaArnPrefix| + |region|] == region
    ensures arn[|LambdaArnPrefix| + |region|] == ':'
    ensures arn[|LambdaArnPrefix| + |region| + 1..|LambdaArnPrefix| + |region| + 1 + |accountId|] == accountId
    ensures arn[|LambdaArnPrefix| + |region| + 1 + |accountId|..|arn| - |lambdaName|] == FunctionInfix
    ensures arn[|arn| - |lambdaName|..] == lambdaName
  {
    LambdaArnPrefix + region + ":" + accountId + FunctionInfix + lambdaName
  }

  /**
    The destination ARN this deployment installs for `functionName`: the ARN
    of the function `<service>-<stage>-<function>` in this region and account.
  */
  function GuessDestinationArn(env: Env, accountId: string, functionName: string): (arn: string)
    ensures |arn| == |LambdaArnPrefix| + |env.region| + 1 + |accountId| + |FunctionInfix|
                   + |LambdaFunctionName(env, functionName)|
    ensures arn[..|LambdaArnPrefix|] == LambdaArnPrefix
    ensures arn[|LambdaArnPrefix|..|LambdaArnPrefix| + |env.region|] == env.region
    ensures arn[|LambdaArnPrefix| + |env.region|] == ':'
    ensures arn[|LambdaArnPrefix| + |env.region| + 1..|LambdaArnPrefix| + |env.region| + 1 + |accountId|] == accountId
    ensures arn[|LambdaArnPrefix| + |env.region| + 1 + |accountId|..|arn| - |LambdaFunctionName(env, functionName)|]
         == FunctionInfix
    ensures arn[|arn| - |LambdaFunctionName(env, functionName)|..] == LambdaFunctionName(env, functionName)
    ensures arn[|arn| - |functionName|..] == functionName
  {
    LambdaFunctionArn(env.region, accountId, LambdaFunctionName(env, functionName))
  }

  /** The ARN determines the function name it ends with. */
  lemma LambdaFunctionArnInjective(region: string, accountId: string, n1: string, n2: string)
    ensures LambdaFunctionArn(region, accountId, n1) == LambdaFunctionArn(region, accountId, n2) ==> n1 == n2
  {
    var a1 := LambdaFunctionArn(region, accountId, n1);
    var a2 := LambdaFunctionArn(region, accountId, n2);
    if a1 == a2 {
      assert |n1| == |n2|;
      assert n1 == a1[|a1| - |n1|..] == a2[|a2| - |n2|..] == n2;
    }
  }

  /** The deployed function name determines the stage. */
  lemma LambdaFunctionNameStageInjective(env: Env, otherStage: string, functionName: string)
    ensures LambdaFunctionName(env, functionName) == LambdaFunctionName(env.(stage := otherStage), functionName)
            ==> env.stage == otherStage
  {
    var n1 := LambdaFunctionName(env, functionName);
    var n2 := LambdaFunctionName(env.(stage := otherStage), functionName);
    var k := |env.serviceName| + 1;
    if n1 == n2 {
      assert |env.stage| == |otherStage|;
      assert n1[k..k + |env.stage|] == env.stage;
      assert n2[k..k + |otherStage|] == otherStage;
    }
  }

  /**
    Within one deployment context, the guessed destination ARN determines the
    function: two different function names never guess the same ARN.
  */
  lemma GuessDestinationArnInjective(env: Env, accountId: string, f1: string, f2: string)
    ensures GuessDestinationArn(env, accountId, f1) == GuessDestinationArn(env, accountId, f2) ==> f1 == f2
  {
    var n1 := LambdaFunctionName(env, f1);
    var n2 := LambdaFunctionName(env, f2);
    LambdaFunctionArnInjective(env.region, accountId, n1, n2);
    if n1 == n2 {
      assert |f1| == |f2|;
      assert f1 == n1[|n1| - |f1|..] == n2[|n2| - |f2|..] == f2;
    }
  }

  /**
    The guessed destination ARN also determines the stage: the same function
    deployed in two stages has two different ARNs.
  */
  lemma GuessDestinationArnStageInjective(env: Env, otherStage: string, accountId: string, functionName: string)
    ensures GuessDestinationArn(env, accountId, functionName)
            == GuessDestinationArn(env.(stage := otherStage), accountId, functionName)
            ==> env.stage == otherStage
  {
    LambdaFunctionArnInjective(env.region, accountId,
      LambdaFunctionName(env, functionName), LambdaFunctionName(env.(stage := otherStage), functionName));
    LambdaFunctionNameStageInjective(env, otherStage, functionName);
  }
}

=== FILE: orchestrator.dfy ===
/**
  Selecting the compile jobs (`compileSubscriptionFilterEvents`): every event
  of every function, in function-then-event order, is validated; an invalid
  setting aborts the whole compile, a valid one for another stage is skipped,
  and a valid one for the active stage becomes a job.
*/
module Orchestrator {
  import opened Wrappers
  import opened Settings

  datatype Event = Event(subscriptionFilter: RawSetting)

  /** A function of the service with its events, in declaration order. */
  datatype FunctionDef = FunctionDef(name: string, events: seq<Event>)

  /** One event together with the function it belongs to. */
  datatype Site = Site(functionName: string, setting: RawSetting)

  /** A `doCompile(setting, functionName)` to run. */
  datatype Job = Job(setting: Setting, functionName: string)

  /** The events of one function, each paired with the function's name. */
  function SitesOf(name: string, events: seq<Event>): (r: seq<Site>)
    ensures |r| == |events|
    ensures forall k :: 0 <= k < |r| ==> r[k] == Site(name, events[k].subscriptionFilter)
  {
    seq(|events|, k requires 0 <= k < |events| => Site(name, events[k].subscriptionFilter))
  }

  /** Every event of every function, function by function. */
  function Sites(functions: seq<FunctionDef>): seq<Site> {
    if functions == [] then [] else SitesOf(functions[0].name, functions[0].events) + Sites(functions[1..])
  }

  /** `prefix` followed by the jobs of `r`, or the error of `r`. */
  function Then(prefix: seq<Job>, r: Result<seq<Job>, Field>): Result<seq<Job>, Field> {
    match r
    case Success(js) => Success(prefix + js)
    case Failure(f) => Failure(f)
  }

  /** One event's contribution in front of the outcome `rest` of the events after it. */
  function SelectStep(site: Site, stage: string, rest: Result<seq<Job>, Field>): Result<seq<Job>, Field> {
    match Validate(site.setting)
    case Invalid(f) => Failure(f)
    case NotApplicable => rest
    case Valid(s) => if s.stage == stage then Then([Job(s, site.functionName)], rest) else rest
  }

  /** The jobs of `sites` for the active `stage`, or the field of the first invalid setting. */
  function SelectJobs(sites: seq<Site>, stage: string): (r: Result<seq<Job>, Field>)
    ensures r.Success? ==> |r.value| <= |sites|
    ensures r.Success? ==> forall k :: 0 <= k < |r.value| ==>
      r.value[k].setting.stage == stage && r.value[k].setting.WellFormed()
  {
    if sites == [] then Success([]) else SelectStep(sites[0], stage, SelectJobs(sites[1..], stage))
  }

  /** The event is compiled: its setting validates and names the active stage. */
  ghost predicate Selected(site: Site, stage: string) {
    Validate(site.setting).Valid? && Validate(site.setting).setting.stage == stage
  }

  /** The job a selected event becomes. */
  function JobOf(site: Site): Job
    requires Validate(site.setting).Valid?
  {
    Job(Validate(site.setting).setting, site.functionName)
  }

  /**
    `jobs` are the jobs of the selected sites, in site order: `idx` lists the
    positions of exactly the selected sites, increasing.
  */
  ghost predicate IsSelection(jobs: seq<Job>, sites: seq<Site>, stage: string, idx: seq<nat>) {
    && |idx| == |jobs|
    && (forall k :: 0 <= k < |idx| ==>
          idx[k] < |sites| && Selected(sites[idx[k]], stage) && jobs[k] == JobOf(sites[idx[k]]))
    && (forall k, l :: 0 <= k < l < |idx| ==> idx[k] < idx[l])
    && (forall i :: 0 <= i < |sites| && Selected(sites[i], stage) ==> i in idx)
  }

  /** Positions in `sites[1..]` as positions in `sites`. */
  function Shift(idx: seq<nat>): (r: seq<nat>)
    ensures |r| == |idx| && forall k :: 0 <= k < |r| ==> r[k] == idx[k] + 1
  {
    seq(|idx|, k requires 0 <= k < |idx| => idx[k] + 1)
  }

  /**
    The compile aborts exactly when some event's setting is invalid, and then
    reports the field of the first invalid setting, even when that event's
    stage is not the active one.
  */
  lemma {:induction false} SelectJobsFailsOnFirstInvalid(sites: seq<Site>, stage: string)
    ensures SelectJobs(sites, stage).Failure?
        <==> exists i :: 0 <= i < |sites| && Validate(sites[i].setting).Invalid?
    ensures SelectJobs(sites, stage).Failure? ==>
      exists i :: 0 <= i < |sites| && Validate(sites[i].setting) == Invalid(SelectJobs(sites, stage).error)
        && forall j :: 0 <= j < i ==> !Validate(sites[j].setting).Invalid?
  {
    if sites != [] {
      SelectJobsFailsOnFirstInvalid(sites[1..], stage);
      var r := SelectJobs(sites, stage);
      if Validate(sites[0].setting).Invalid? {
        assert Validate(sites[0].setting) == Invalid(r.error);
      } else {
        if exists i :: 0 <= i < |sites| && Validate(sites[i].setting).Invalid? {
          var i :| 0 <= i < |sites| && Validate(sites[i].setting).Invalid?;
          assert sites[1..][i - 1] == sites[i];
        }
        if r.Failure? {
          var i :| 0 <= i < |sites[1..]| && Validate(sites[1..][i].setting) == Invalid(r.error)
            && forall j :: 0 <= j < i ==> !Validate(sites[1..][j].setting).Invalid?;
          assert sites[i + 1] == sites[1..][i];
          forall j | 0 <= j < i + 1 ensures !Validate(sites[j].setting).Invalid? {
            if j > 0 { assert sites[j] == sites[1..][j - 1]; }
          }
        }
      }
    }
  }

  /** The positions `tidx` of `sites[1..]` as positions of `sites`, after position 0. */
  function ConsShift(tidx: seq<nat>): (r: seq<nat>)
    ensures |r| == |tidx| + 1 && r[0] == 0
    ensures forall k :: 0 <= k < |tidx| ==> r[k + 1] == tidx[k] + 1
  {
    seq(|tidx| + 1, k requires 0 <= k <= |tidx| => if k == 0 then 0 else tidx[k - 1] + 1)
  }

  lemma ConsShiftIncreasing(tidx: seq<nat>)
    requires forall k, l :: 0 <= k < l < |tidx| ==> tidx[k] < tidx[l]
    ensures forall k, l :: 0 <= k < l < |ConsShift(tidx)| ==> ConsShift(tidx)[k] < ConsShift(tidx)[l]
  {
    var idx := ConsShift(tidx);
    forall k, l | 0 <= k < l < |idx| ensures idx[k] < idx[l] {
      var t := l - 1;
      assert idx[t + 1] == tidx[t] + 1;
      if k > 0 {
        var u := k - 1;
        assert idx[u + 1] == tidx[u] + 1;
      }
    }
  }

  lemma ConsShiftMember(tidx: seq<nat>, m: nat)
    requires m in tidx
    ensures m + 1 in ConsShift(tidx)
  {
    var k :| 0 <= k < |tidx| && tidx[k] == m;
    assert ConsShift(tidx)[k + 1] == m + 1;
  }

  /** Each position of `ConsShift(tidx)` names a selected site whose job sits at the same place. */
  lemma {:induction false} SelectionConsElements(sites: seq<Site>, stage: string, tail: seq<Job>, tidx: seq<nat>)
    requires sites != [] && Selected(sites[0], stage)
    requires IsSelection(tail, sites[1..], stage, tidx)
    ensures forall k :: 0 <= k < |ConsShift(tidx)| ==>
      ConsShift(tidx)[k] < |sites| && Selected(sites[ConsShift(tidx)[k]], stage)
      && ([JobOf(sites[0])] + tail)[k] == JobOf(sites[ConsShift(tidx)[k]])
  {
    var jobs := [JobOf(sites[0])] + tail;
    var idx := ConsShift(tidx);
    forall k | 0 <= k < |idx|
      ensures idx[k] < |sites| && Selected(sites[idx[k]], stage) && jobs[k] == JobOf(sites[idx[k]])
    {
      if k > 0 {
        var t := k - 1;
        assert idx[t + 1] == tidx[t] + 1;
        assert sites[tidx[t] + 1] == sites[1..][tidx[t]];
        assert jobs[t + 1] == tail[t];
      }
    }
  }

  /** Every selected site's position occurs in `ConsShift(tidx)`. */
  lemma {:induction false} SelectionConsCovers(sites: seq<Site>, stage: string, tail: seq<Job>, tidx: seq<nat>)
    requires sites != []
    requires IsSelection(tail, sites[1..], stage, tidx)
    ensures forall i :: 0 <= i < |sites| && Selected(sites[i], stage) ==> i in ConsShift(tidx)
  {
    forall i | 0 <= i < |sites| && Selected(sites[i], stage) ensures i in ConsShift(tidx) {
      if i > 0 {
        assert sites[1..][i - 1] == sites[i];
        ConsShiftMember(tidx, i - 1);
      } else {
        assert ConsShift(tidx)[0] == 0;
      }
    }
  }

  /** A selection of the later sites extends past a selected first site. */
  lemma {:induction false} SelectionCons(sites: seq<Site>, stage: string, tail: seq<Job>, tidx: seq<nat>)
    requires sites != [] && Selected(sites[0], stage)
    requires IsSelection(tail, sites[1..], stage, tidx)
    ensures IsSelection([JobOf(sites[0])] + tail, sites, stage, ConsShift(tidx))
  {
    SelectionConsElements(sites, stage, tail, tidx);
    ConsShiftIncreasing(tidx);
    SelectionConsCovers(sites, stage, tail, tidx);
  }

  /** Each position of `Shift(tidx)` names a selected site whose job sits at the same place. */
  lemma {:induction false} SelectionSkipElements(sites: seq<Site>, stage: string, tail: seq<Job>, tidx: seq<nat>)
    requires sites != []
    requires IsSelection(tail, sites[1..], stage, tidx)
    ensures forall k :: 0 <= k < |Shift(tidx)| ==>
      Shift(tidx)[k] < |sites| && Selected(sites[Shift(tidx)[k]], stage) && tail[k] == JobOf(sites[Shift(tidx)[k]])
  {
    var idx := Shift(tidx);
    forall k | 0 <= k < |idx|
      ensures idx[k] < |sites| && Selected(sites[idx[k]], stage) && tail[k] == JobOf(sites[idx[k]])
    {
      assert idx[k] == tidx[k] + 1;
      assert sites[idx[k]] == sites[1..][tidx[k]];
    }
  }

  /** Every selected site's position occurs in `Shift(tidx)` when the first site is not selected. */
  lemma {:induction false} SelectionSkipCovers(sites: seq<Site>, stage: string, tail: seq<Job>, tidx: seq<nat>)
    requires sites != [] && !Selected(sites[0], stage)
    requires IsSelection(tail, sites[1..], stage, tidx)
    ensures forall i :: 0 <= i < |sites| && Selected(sites[i], stage) ==> i in Shift(tidx)
  {
    forall i | 0 <= i < |sites| && Selected(sites[i], stage) ensures i in Shift(tidx) {
      assert i > 0;
      assert sites[1..][i - 1] == sites[i];
      var k :| 0 <= k < |tidx| && tidx[k] == i - 1;
      assert Shift(tidx)[k] == i;
    }
  }

  /** A selection of the later sites is one of all sites when the first is not selected. */
  lemma {:induction false} SelectionSkip(sites: seq<Site>, stage: string, tail: seq<Job>, tidx: seq<nat>)
    requires sites != [] && !Selected(sites[0], stage)
    requires IsSelection(tail, sites[1..], stage, tidx)
    ensures IsSelection(tail, sites, stage, Shift(tidx))
  {
    SelectionSkipElements(sites, stage, tail, tidx);
    SelectionSkipCovers(sites, stage, tail, tidx);
    var idx := Shift(tidx);
    forall k, l | 0 <= k < l < |idx| ensures idx[k] < idx[l] {
      assert idx[k] == tidx[k] + 1 && idx[l] == tidx[l] + 1;
    }
  }

  /**
    On success the jobs are exactly the events whose setting validates with
    the active stage, one job each, in function-then-event order.
  */
  lemma {:induction false} SelectJobsIsOrderedSelection(sites: seq<Site>, stage: string)
    requires SelectJobs(sites, stage).Success?
    ensures exists idx :: IsSelection(SelectJobs(sites, stage).value, sites, stage, idx)
  {
    if sites == [] {
      assert IsSelection([], sites, stage, []);
    } else {
      SelectJobsIsOrderedSelection(sites[1..], stage);
      var tail := SelectJobs(sites[1..], stage).value;
      var tidx :| IsSelection(tail, sites[1..], stage, tidx);
      if Selected(sites[0], stage) {
        assert SelectJobs(sites, stage).value == [JobOf(sites[0])] + tail;
        SelectionCons(sites, stage, tail, tidx);
        assert IsSelection(SelectJobs(sites, stage).value, sites, stage, ConsShift(tidx));
      } else {
        assert SelectJobs(sites, stage).value == tail;
        SelectionSkip(sites, stage, tail, tidx);
      }
    }
  }

  /** When no event names the active stage and none is invalid, nothing is compiled. */
  lemma {:induction false} NoMatchingStageNoJobs(sites: seq<Site>, stage: string)
    requires forall i :: 0 <= i < |sites| ==>
      Validate(sites[i].setting).NotApplicable?
      || (Validate(sites[i].setting).Valid? && Validate(sites[i].setting).setting.stage != stage)
    ensures SelectJobs(sites, stage) == Success([])
  {
    if sites != [] {
      assert forall i :: 0 <= i < |sites[1..]| ==> sites[1..][i] == sites[i + 1];
      NoMatchingStageNoJobs(sites[1..], stage);
    }
  }

  lemma SitesStep(functions: seq<FunctionDef>, i: nat)
    requires i < |functions|
    ensures Sites(functions[i..]) == SitesOf(functions[i].name, functions[i].events) + Sites(functions[i + 1..])
  {
    assert functions[i..][1..] == functions[i + 1..];
  }

  lemma SitesOfStep(name: string, events: seq<Event>, j: nat)
    requires j < |events|
    ensures SitesOf(name, events[j..]) == [Site(name, events[j].subscriptionFilter)] + SitesOf(name, events[j + 1..])
  {
  }

  /** Selecting from the events of one function from position `j` on. */
  lemma EventStep(name: string, events: seq<Event>, j: nat, stage: string)
    requires j < |events|
    ensures SelectJobs(SitesOf(name, events[j..]), stage)
         == SelectStep(Site(name, events[j].subscriptionFilter), stage, SelectJobs(SitesOf(name, events[j + 1..]), stage))
  {
    SitesOfStep(name, events, j);
    SelectJobsStep(Site(name, events[j].subscriptionFilter), SitesOf(name, events[j + 1..]), stage);
  }

  lemma ThenNil(r: Result<seq<Job>, Field>)
    ensures Then([], r) == r
  {
    if r.Success? {
      assert [] + r.value == r.value;
    }
  }

  lemma ThenThen(jobs: seq<Job>, more: seq<Job>, r: Result<seq<Job>, Field>)
    ensures Then(jobs, Then(more, r)) == Then(jobs + more, r)
  {
    if r.Success? {
      assert jobs + (more + r.value) == (jobs + more) + r.value;
    }
  }

  /** What one event does to the jobs collected so far, in front of the outcome `later` of the events after it. */
  lemma ThenSelectStep(jobs: seq<Job>, site: Site, stage: string, later: Result<seq<Job>, Field>)
    ensures Validate(site.setting).Invalid? ==>
      Then(jobs, SelectStep(site, stage, later)) == Failure(Validate(site.setting).field)
    ensures Validate(site.setting).NotApplicable? ==> Then(jobs, SelectStep(site, stage, later)) == Then(jobs, later)
    ensures Validate(site.setting).Valid? && Validate(site.setting).setting.stage != stage ==>
      Then(jobs, SelectStep(site, stage, later)) == Then(jobs, later)
    ensures Validate(site.setting).Valid? && Validate(site.setting).setting.stage == stage ==>
      Then(jobs, SelectStep(site, stage, later)) == Then(jobs + [Job(Validate(site.setting).setting, site.functionName)], later)
  {
    if Validate(site.setting).Valid? && Validate(site.setting).setting.stage == stage {
      ThenThen(jobs, [Job(Validate(site.setting).setting, site.functionName)], later);
    }
  }

  lemma SelectJobsStep(site: Site, rest: seq<Site>, stage: string)
    ensures SelectJobs([site] + rest, stage) == SelectStep(site, stage, SelectJobs(rest, stage))
  {
    assert ([site] + rest)[1..] == rest;
  }

  /**
    Selecting from `a + b`: the first invalid setting of `a` wins, and
    otherwise the jobs of `a` come before the outcome for `b`.
  */
  lemma {:induction false} SelectJobsAppend(a: seq<Site>, b: seq<Site>, stage: string)
    ensures SelectJobs(a, stage).Failure? ==> SelectJobs(a + b, stage) == SelectJobs(a, stage)
    ensures SelectJobs(a, stage).Success? ==> SelectJobs(a + b, stage) == Then(SelectJobs(a, stage).value, SelectJobs(b, stage))
  {
    if a == [] {
      assert a + b == b;
      ThenNil(SelectJobs(b, stage));
    } else {
      SelectJobsAppend(a[1..], b, stage);
      SelectJobsStep(a[0], a[1..] + b, stage);
      assert a + b == [a[0]] + (a[1..] + b);
      var tail := SelectJobs(a[1..], stage);
      match Validate(a[0].setting)
      case Invalid(_) =>
      case NotApplicable =>
      case Valid(s) =>
        if s.stage == stage && tail.Success? {
          ThenThen([Job(s, a[0].functionName)], tail.value, SelectJobs(b, stage));
        }
    }
  }

  /**
    `compileSubscriptionFilterEvents`' two nested `forEach` loops: the jobs it
    launches are those `SelectJobs` describes, and the first invalid setting
    stops it.
  */
  method CompileJobs(functions: seq<FunctionDef>, stage: string) returns (r: Result<seq<Job>, Field>)
    ensures r == SelectJobs(Sites(functions), stage)
  {
    var jobs: seq<Job> := [];
    var i := 0;
    assert functions[i..] == functions;
    ThenNil(SelectJobs(Sites(functions), stage));
    while i < |functions|
      invariant 0 <= i <= |functions|
      invariant SelectJobs(Sites(functions), stage) == Then(jobs, SelectJobs(Sites(functions[i..]), stage))
    {
      var f := functions[i];
      var own := CompileEventJobs(f.name, f.events, stage);
      SitesStep(functions, i);
      SelectJobsAppend(SitesOf(f.name, f.events), Sites(functions[i + 1..]), stage);
      if own.Failure? {
        return own;
      }
      ThenThen(jobs, own.value, SelectJobs(Sites(functions[i + 1..]), stage));
      jobs := jobs + own.value;
      i := i + 1;
    }
    assert Sites(functions[i..]) == [];
    r := Success(jobs);
    assert jobs + [] == jobs;
  }

  /** The inner `forEach`: the jobs of one function's events, or the first invalid field. */
  method CompileEventJobs(name: string, events: seq<Event>, stage: string) returns (r: Result<seq<Job>, Field>)
    ensures r == SelectJobs(SitesOf(name, events), stage)
  {
    var jobs: seq<Job> := [];
    var j := 0;
    assert events[j..] == events;
    ThenNil(SelectJobs(SitesOf(name, events), stage));
    while j < |events|
      invariant 0 <= j <= |events|
      invariant SelectJobs(SitesOf(name, events), stage) == Then(jobs, SelectJobs(SitesOf(name, events[j..]), stage))
    {
      var site := Site(name, events[j].subscriptionFilter);
      EventStep(name, events, j, stage);
      ThenSelectStep(jobs, site, stage, SelectJobs(SitesOf(name, events[j + 1..]), stage));
      match Validate(site.setting) {
        case Invalid(field) =>
          return Failure(field);
        case NotApplicable =>
        case Valid(s) =>
          if s.stage == stage {
            jobs := jobs + [Job(s, name)];
          }
      }
      j := j + 1;
    }
    assert SitesOf(name, events[j..]) == [];
    r := Success(jobs);
    assert jobs + [] == jobs;
  }
}

=== FILE: settings.dfy ===
/**
  The `subscriptionFilter` property of a function event and its validation
  (`validateSettings`). A setting is usable when `stage`, `logGroupName` and
  `filterPattern` are non-empty strings; they are checked in that order and the
  first one that fails is reported.
*/
module Settings {

  /** The JavaScript values a configuration field can hold. */
  datatype JsValue =
    | JsUndefined
    | JsNull
    | JsBool(b: bool)
    | JsNumber(n: int)
    | JsString(s: string)
    | JsObject

  /**
    The `subscriptionFilter` property of one event. Every falsy value
    (absent, `null`, `false`, `0`, `""`) is `Absent`; any other value is
    `Present` with whatever its three fields hold (`JsUndefined` when missing).
    `filterName` is never read and is not modelled.
  */
  datatype RawSetting =
    | Absent
    | Present(stage: JsValue, logGroupName: JsValue, filterPattern: JsValue)

  /** A validated setting. */
  datatype Setting = Setting(stage: string, logGroupName: string, filterPattern: string) {
    /** The invariant every validated setting satisfies. */
    predicate WellFormed() {
      stage != [] && logGroupName != [] && filterPattern != []
    }
  }

  /** The required fields, in the order they are checked. */
  datatype Field = Stage | LogGroupName | FilterPattern

  function Rank(f: Field): nat {
    match f
    case Stage => 0
    case LogGroupName => 1
    case FilterPattern => 2
  }

  /** The property name as it appears in the configuration and in error messages. */
  function FieldName(f: Field): string {
    match f
    case Stage => "stage"
    case LogGroupName => "logGroupName"
    case FilterPattern => "filterPattern"
  }

  function FieldValue(raw: RawSetting, f: Field): JsValue
    requires raw.Present?
  {
    match f
    case Stage => raw.stage
    case LogGroupName => raw.logGroupName
    case FilterPattern => raw.filterPattern
  }

  /** `!v || typeof v !== 'string'` is false: `v` is a non-empty string. */
  predicate Usable(v: JsValue) {
    v.JsString? && v.s != []
  }

  /** The raw configuration a validated setting is read from. */
  function ToRaw(s: Setting): RawSetting {
    Present(JsString(s.stage), JsString(s.logGroupName), JsString(s.filterPattern))
  }

  datatype Validation =
    | NotApplicable            // no subscriptionFilter: the event is skipped silently
    | Valid(setting: Setting)
    | Invalid(field: Field)    // a configuration error naming `field`

  /** `validateSettings`. */
  function Validate(raw: RawSetting): (r: Validation)
    ensures r.NotApplicable? <==> raw.Absent?
    ensures r == Invalid(Stage) <==> raw.Present? && !Usable(raw.stage)
    ensures r == Invalid(LogGroupName) <==> raw.Present? && Usable(raw.stage) && !Usable(raw.logGroupName)
    ensures r == Invalid(FilterPattern)
        <==> raw.Present? && Usable(raw.stage) && Usable(raw.logGroupName) && !Usable(raw.filterPattern)
    ensures r.Valid? ==> r.setting.WellFormed() && ToRaw(r.setting) == raw
  {
    match raw
    case Absent => NotApplicable
    case Present(stage, logGroupName, filterPattern) =>
      if !Usable(stage) then Invalid(Stage)
      else if !Usable(logGroupName) then Invalid(LogGroupName)
      else if !Usable(filterPattern) then Invalid(FilterPattern)
      else Valid(Setting(stage.s, logGroupName.s, filterPattern.s))
  }

  /** Validation accepts exactly the well-formed settings, unchanged. */
  lemma ValidateToRaw(s: Setting)
    ensures Validate(ToRaw(s)) == (if s.WellFormed() then Valid(s) else Invalid(FirstEmptyField(s)))
  {
  }

  /** The first field of `s`, in checking order, that is empty. */
  function FirstEmptyField(s: Setting): (f: Field)
    requires !s.WellFormed()
    ensures FieldValue(ToRaw(s), f) == JsString([])
    ensures forall g: Field :: Rank(g) < Rank(f) ==> Usable(FieldValue(ToRaw(s), g))
  {
    if s.stage == [] then Stage
    else if s.logGroupName == [] then LogGroupName
    else FilterPattern
  }

  /**
    Validation is decided by the first unusable field alone: whatever the later
    fields hold, a bad `stage` is reported as `stage`.
  */
  lemma FirstBadFieldWins(raw: RawSetting, f: Field)
    requires raw.Present?
    requires !Usable(FieldValue(raw, f))
    requires forall g: Field :: Rank(g) < Rank(f) ==> Usable(FieldValue(raw, g))
    ensures Validate(raw) == Invalid(f)
  {
    match f
    case Stage =>
    case LogGroupName =>
      assert Usable(FieldValue(raw, Stage));
    case FilterPattern =>
      assert Usable(FieldValue(raw, Stage)) && Usable(FieldValue(raw, LogGroupName));
  }

  /** A present setting validates exactly when all three fields are usable. */
  lemma ValidateAcceptsExactlyUsable(raw: RawSetting)
    requires raw.Present?
    ensures Validate(raw).Valid? <==> forall f: Field :: Usable(FieldValue(raw, f))
  {
    if !Validate(raw).Valid? {
      assert !Usable(FieldValue(raw, Validate(raw).field));
    }
  }
}

=== FILE: wrappers.dfy ===
/** Option and Result types shared by the whole model. */
module Wrappers {

  datatype Option<+T> = None | Some(value: T)

  /** The outcome of an operation that either produces a value or fails with an error. */
  datatype Result<+R, +E> = Success(value: R) | Failure(error: E) {
    predicate IsFailure() {
      Failure?
    }

    function PropagateFailure<U>(): Result<U, E>
      requires Failure?
    {
      Failure(error)
    }

    function Extract(): R
      requires Success?
    {
      value
    }

    /** The same outcome with the error converted by `f`. */
    function MapError<E2>(f: E -> E2): (r: Result<R, E2>)
      ensures r.Success? <==> Success?
      ensures Success? ==> r.value == value
      ensures Failure? ==> r.error == f(error)
    {
      match this
      case Success(v) => Success(v)
      case Failure(e) => Failure(f(e))
    }
  }
}
